=== FILE: README.md ===
# Flight price predictor: a verified model of the request pipeline

The flight price predictor is a React client and a Flask service. A user fills in a flight
query (airline, cities, departure and arrival slots, stops, class, duration, days left).
The client validates it twice: once in the form and once before sending. It normalises the
payload and posts it with a bounded, exponentially backed-off retry. It classifies failures
into user-facing messages and keeps the last ten predictions, newest first. The result card
derives its display fields from whatever shape the reply has. The service checks the
required fields again, applies its own numeric defaults and refuses to predict without a
loaded model.

This project models that pipeline in Dafny and proves what each step promises.

| file | module | what it models |
|---|---|---|
| `wrappers.dfy` | `Wrappers` | `Option` and `Result` |
| `js_semantics.dfy` | `JsSemantics` | JavaScript values, truthiness, `\|\|` chains, strict equality, number conversions |
| `constants.dfy` | `Constants` | the client's constant tables (`frontend/src/utils/constants.js`) |
| `api_service.dfy` | `ApiService` | `frontend/src/services/api.js`: base URL, the error interceptor, `retryRequest`, `validateFlightData`, `formatFlightData`, `getPredictionWithRetry` |
| `prediction_form.dfy` | `PredictionForm` | `PredictionForm.jsx`: `validateForm` and the change, submit and reset handlers over `formData`/`errors`/`touched` |
| `prediction_hooks.dfy` | `PredictionHooks` | `usePrediction.js`: the prediction store, `useModelInfo`, `useHealthCheck` |
| `prediction_result.dfy` | `PredictionResult` | `PredictionResult.jsx`: the price chain, the price band, the detail getters |
| `backend.dfy` | `Backend` | `backend/app.py`: `predict` up to the model, `convert_numpy_types`, the model guards |
| `end_to_end.dfy` | `EndToEnd` | how the two client validators, the wire format and the service fit together |

## How the model is built

- A JavaScript value is the datatype `JsSemantics.Value`: undefined, null, a boolean, a
  number (a `real`), a string, or an object (a map from keys to values).
  - `Truthy` is JavaScript's truthiness.
  - `OrChain` is `a || b || …`.
  - `StrictEquals` is `===`, with objects treated as distinct references.
- The string parsers are kept abstract in a `JsEnv` record passed as a parameter: `Number()`,
  `parseFloat`, `parseInt`, number-to-string and `toLocaleString`. For a number argument,
  each parser's result is stated concretely. A parse result is an `Option`, where `None`
  stands for NaN. The same record supplies the message of the TypeError that reading a
  property of null or undefined throws. `usePrediction` reads `result.success` inside its
  try, so that TypeError reaches its catch; `useHealthCheck` reads `result.status` only
  inside a state updater, outside its try.
- Python values are the datatype `Backend.PyValue`. It includes numpy scalars and
  one-dimensional numpy arrays. `float(s)`, `int(s)`, `round(p, 2)`, the thousands format
  and the text of Python's own exceptions are the abstract record `PyEnv`.
- The request function of `retryRequest` is a function from the call index to its outcome
  (`Attempt`). The sleeps become the returned list of delays in milliseconds. `retryRequest`
  is a `for` loop (`ApiService.RetryRequest`), proved equal to the recursive specification
  `RetryFrom`.
- Component and hook state is a class per state record.
  - `PredictionForm.FormState` holds `formData`, `errors` and `touched`.
  - `PredictionHooks.PredictionStore` holds `loading`, `prediction`, `error` and `history`.
  - `HealthMonitor` and `ModelInfoState` hold the other two hooks' state.
  - Each method performs the `setState` updates of one handler. Its `ensures` gives the
    whole new state.
- The client has two message tables.
  - The interceptor uses the one in `api.js`.
  - The hooks fall back to the one in `constants.js`.
  - The model keeps both, under different names.

## Model

| member | source | states |
|---|---|---|
| JsSemantics.OrChain | frontend/src/components/predictor/PredictionResult.jsx:21 | an `\|\|` chain yields the first truthy operand, or the last operand when none is truthy; it is truthy exactly when some operand is |
| JsSemantics.OrChainSelects | frontend/src/components/predictor/PredictionResult.jsx:21 | the operand an `\|\|` chain evaluates to is determined: the first truthy one, otherwise the last |
| JsSemantics.Trunc | frontend/src/services/api.js:244 | `parseInt` of a number truncates toward zero: the result lies within 1 of the argument, on the zero side |
| Constants.ValidationRulesWellFormed | frontend/src/utils/constants.js:105-116 | the duration rule [0.5, 24] and the days-left rule [1, 365] each have min < max and a positive step |
| Constants.DefaultsWithinRules | frontend/src/utils/constants.js:92-116 | the default duration 2.5 and days left 15 lie inside their rules |
| Constants.DefaultsLeaveRequiredEmpty | frontend/src/utils/constants.js:92-102 | the defaults cover exactly the nine form fields, and every required field starts falsy |
| Constants.LabelsCoverFormFields | frontend/src/utils/constants.js:66-76 | the labels cover exactly the nine form fields, so every required field has one |
| Constants.FormOptionsShape | frontend/src/utils/constants.js:24-49 | departure and arrival offer the same six slots in the same order; the six cities are pairwise distinct |
| ApiService.GetApiBaseUrl | frontend/src/services/api.js:27-36 | the base URL is the empty string in every mode |
| ApiService.Intercept | frontend/src/services/api.js:86-124 | the interceptor changes only the error's message, which becomes the classified message |
| ApiService.ClassifyMessageByCategory | frontend/src/services/api.js:89-121 | the message for each category: timeout first; then the response statuses, where 400 prefers the body's `error` over the validation text, 401/403/404 get fixed texts, and 500 or any other status prefers the body's `error` over the server text; then network when only a request was made; unknown otherwise |
| ApiService.TimeoutTakesPrecedence | frontend/src/services/api.js:90-91 | an `ECONNABORTED` error gets the timeout message whatever response it carries |
| ApiService.ClassifyMessageRange | frontend/src/services/api.js:92-121 | the message is one of the eight fixed texts, or the body's `error` text for a status other than 401, 403 and 404 |
| ApiService.RetryFrom | frontend/src/services/api.js:176-201 | a run from attempt i makes between i+1 and maxRetries+1 calls; every call but the last was retryable (rejected, not 4xx); the last call succeeded, was a 4xx, or was call maxRetries; the run settles with the last call's outcome; the wait after attempt j is 2^j·1000 ms |
| ApiService.RetrySkip | frontend/src/services/api.js:179-198 | after i retryable failures the run continues as the run from attempt i, having waited Backoffs(i) |
| ApiService.RetryRequest | frontend/src/services/api.js:176-201 | the loop with its `lastError` makes exactly the calls and waits of `Retry` and settles with its result |
| ApiService.BackoffsTotal | frontend/src/services/api.js:191-196 | the waits before attempt n add up to 1000·(2^n − 1) ms |
| ApiService.RetryWaits | frontend/src/services/api.js:179-196 | a run makes 1 to maxRetries+1 calls; there is one wait between consecutive calls and none after the last; the waits total 1000·(2^(calls−1) − 1) ≤ 1000·(2^maxRetries − 1) ms |
| ApiService.DefaultRetryBudget | frontend/src/services/api.js:176-196 | with the default of 3 retries: at most 4 calls and 7000 ms of waiting |
| ApiService.FirstSuccessEndsRun | frontend/src/services/api.js:180-182 | a first call that resolves is the whole run: one call, no wait |
| ApiService.ClientErrorEndsRun | frontend/src/services/api.js:186-189 | a 4xx on call k, after retryable failures, ends the run with that error after k+1 calls, with no wait after it |
| ApiService.ExhaustedRunRethrowsLast | frontend/src/services/api.js:184-200 | when every call fails retryably, the run makes maxRetries+1 calls and rethrows the last call's error |
| ApiService.NotFoundOnce | frontend/src/services/api.js:186-189 | a 404 on the first call: one call, no wait |
| ApiService.NetworkTwiceThenSuccess | frontend/src/services/api.js:191-196 | two network failures and then a success: three calls, waits of 1000 and 2000 ms |
| ApiService.MissingFields | frontend/src/services/api.js:215 | the filter keeps exactly the falsy fields, in the original order |
| ApiService.ValidateFlightData | frontend/src/services/api.js:204-231 | accepts iff every required field is truthy, the duration is absent/falsy or a positive number, and days left is absent/falsy or a number ≥ 1; a missing field always wins, with "Missing required fields: " and the falsy fields in fixed order; with every field present, a rejected duration gives "Duration must be a positive number", and only then a rejected days left gives "Days left must be a positive number" |
| ApiService.FormatFlightData | frontend/src/services/api.js:234-246 | exactly the nine keys; the seven required fields are copied unchanged; duration is `parseFloat` or 2.5 when NaN or 0; days left is `parseInt` or 15 when NaN or 0 |
| ApiService.FormatIdempotent | frontend/src/services/api.js:234-246 | formatting an already formatted payload returns it unchanged |
| ApiService.FallbacksAreFormDefaults | frontend/src/services/api.js:243-244 | the formatter's fallbacks 2.5 and 15 are the form's default values |
| ApiService.GetPredictionWithRetry | frontend/src/services/api.js:249-258 | a payload that fails validation is never sent (0 calls, no delays, the validation message); otherwise the formatted payload is sent 1 to 4 times; every call but the last was retryable, and the last one succeeded, was a 4xx or was the fourth; the waits are 1000·2^j ms between calls; the result is the intercepted outcome of the last call |
| ApiService.PostedRun | frontend/src/services/api.js:257 | the retry run over the posts of one payload, in terms of the transport: the calls before the last were retryable, the last ends the run, the waits are the doubling backoffs, and the result is the last post seen through the interceptor |
| PredictionForm.RequiredErrorsExactly | frontend/src/components/predictor/PredictionForm.jsx:46-60 | the required-field pass records "<label> is required" for exactly the falsy required fields |
| PredictionForm.FormErrorsExactly | frontend/src/components/predictor/PredictionForm.jsx:42-84 | a field has an error iff it is a falsy required field, or it is the destination and the cities are equal, or it is an out-of-range duration or days left; and each error has its rule's text |
| PredictionForm.SameCityBlamesDestinationOnly | frontend/src/components/predictor/PredictionForm.jsx:62-67 | equal non-empty cities put the same-city text on the destination and no error on the source |
| PredictionForm.FormValidIff | frontend/src/components/predictor/PredictionForm.jsx:42-87 | the form is valid iff all required fields are truthy, the cities differ, and duration and days left are in range or falsy |
| PredictionForm.DurationRule | frontend/src/components/predictor/PredictionForm.jsx:69-75 | a numeric duration x is rejected iff x ≠ 0 and x is outside [0.5, 24]; both bounds are inclusive, and 0.49 and 24.01 are rejected |
| PredictionForm.DaysLeftRule | frontend/src/components/predictor/PredictionForm.jsx:77-83 | an integer days left k is rejected iff k ≠ 0 and k is outside [1, 365] |
| PredictionForm.DefaultFormFailsOnRequiredFields | frontend/src/components/predictor/PredictionForm.jsx:46-60 | a freshly reset form has errors on exactly the seven required fields |
| PredictionForm.CollectRequired | frontend/src/components/predictor/PredictionForm.jsx:56-60 | the `forEach` loop records "<label> is required" exactly as the pass over the fields does |
| PredictionForm.ComputeErrors | frontend/src/components/predictor/PredictionForm.jsx:42-84 | the `forEach` loop and the three rules build exactly `FormErrors` |
| PredictionForm.FormState.constructor | frontend/src/components/predictor/PredictionForm.jsx:13-15 | the form starts at the defaults with no errors and nothing touched |
| PredictionForm.FormState.HandleChange | frontend/src/components/predictor/PredictionForm.jsx:18-39 | sets only the named field; clears that field's error only if it had one; marks that field touched; nothing else changes |
| PredictionForm.FormState.ValidateForm | frontend/src/components/predictor/PredictionForm.jsx:42-87 | replaces `errors` wholesale with the new map and returns true iff that map is empty; `formData` and `touched` are unchanged |
| PredictionForm.FormState.HandleSubmit | frontend/src/components/predictor/PredictionForm.jsx:90-103 | marks every key of `formData` touched; validates; hands `formData` to `onSubmit` iff it is valid |
| PredictionForm.FormState.HandleReset | frontend/src/components/predictor/PredictionForm.jsx:106-110 | restores the defaults and empties `errors` and `touched` |
| PredictionHooks.PushHistory | frontend/src/hooks/usePrediction.js:39 | the new entry is first, followed by the first min(n, 9) previous entries, so there are never more than 10 |
| PredictionHooks.WithoutIndexSplices | frontend/src/hooks/usePrediction.js:94 | the filter removes exactly the entry at the index and keeps the order of the rest; an out-of-range index changes nothing |
| PredictionHooks.HistoryAt | frontend/src/hooks/usePrediction.js:87 | `history[i]` for an index in range, null otherwise |
| PredictionHooks.NewPrediction | frontend/src/hooks/usePrediction.js:28-32 | the stored prediction has exactly the reply's own keys plus `timestamp` and `flightData`; the reply's values are kept, except under those two keys, which hold the timestamp and the submitted query |
| PredictionHooks.UnsuccessfulReplyText | frontend/src/hooks/usePrediction.js:43-47 | a reply with falsy `success` fails with its `error` text, or with PREDICTION_FAILED; a null or undefined body fails with the TypeError that reading `result.success` throws, or UNKNOWN_ERROR if that message is empty; the message is never empty |
| PredictionHooks.PredictionStore.constructor | frontend/src/hooks/usePrediction.js:9-14 | the store starts idle, with no prediction, no error and an empty history |
| PredictionHooks.PredictionStore.StartPrediction | frontend/src/hooks/usePrediction.js:18-22 | sets `loading` and clears `error`; `prediction` and `history` are unchanged |
| PredictionHooks.PredictionStore.FinishPrediction | frontend/src/hooks/usePrediction.js:27-57 | success: not loading, the new prediction, no error, and the prediction pushed on the history. Failure (a rejection, a null or undefined body, or a falsy `success`): not loading, no prediction, the error message, and the history unchanged |
| PredictionHooks.PredictionStore.PredictPrice | frontend/src/hooks/usePrediction.js:17-58 | the outcome and the new state follow the reply of `getPredictionWithRetry` as described for `FinishPrediction`, a null or undefined body included; the history stays at most 10 long |
| PredictionHooks.PredictionStore.ClearPrediction | frontend/src/hooks/usePrediction.js:61-67 | nulls `prediction` and `error` only |
| PredictionHooks.PredictionStore.ClearError | frontend/src/hooks/usePrediction.js:70-75 | nulls `error` only |
| PredictionHooks.PredictionStore.ClearHistory | frontend/src/hooks/usePrediction.js:78-83 | empties `history` only |
| PredictionHooks.PredictionStore.PredictionFromHistory | frontend/src/hooks/usePrediction.js:86-88 | `history[i]` for an index in range, null otherwise |
| PredictionHooks.PredictionStore.RemovePredictionFromHistory | frontend/src/hooks/usePrediction.js:91-96 | removes exactly the entry at the index and keeps the order; an out-of-range index leaves the history as it is; nothing else changes |
| PredictionHooks.HealthyFrom | frontend/src/hooks/usePrediction.js:181 | healthy iff the reply arrived and its `status` is the string 'healthy' |
| PredictionHooks.HealthMonitor.CheckHealth | frontend/src/hooks/usePrediction.js:172-200 | an object reply sets `healthy` to (`status === 'healthy'`), clears the error and sets `lastCheck`; a rejection sets `healthy: false` and the error, with the network text as fallback, and fails; any reply that arrives, null or undefined included, resolves with `success: true` and the reply |
| PredictionHooks.ModelInfoState.FetchModelInfo | frontend/src/hooks/usePrediction.js:125-151 | a reply is stored as the model info with no error; an error clears the info and stores its message, falling back to the unknown-error text |
| PredictionHooks.PushAllNewestFirst | frontend/src/hooks/usePrediction.js:39 | after successive successful predictions, position i of the history holds the i-th most recent one, for i < 10 |
| PredictionResult.PredictedPriceFallback | frontend/src/components/predictor/PredictionResult.jsx:21 | the price is the first truthy of `predicted_price`, `price` and `prediction`, or 0 |
| PredictionResult.PriceLevelBands | frontend/src/components/predictor/PredictionResult.jsx:137-141 | Low iff price < 5000; Medium iff 5000 ≤ price < 10000; High iff price ≥ 10000; a NaN price is High |
| PredictionResult.PriceLevelMonotone | frontend/src/components/predictor/PredictionResult.jsx:137-141 | a higher price never gets a lower band |
| PredictionResult.Fields | frontend/src/components/predictor/PredictionResult.jsx:29-34 | the looked-up values are those of the keys, in order |
| PredictionResult.Lookup | frontend/src/components/predictor/PredictionResult.jsx:44-89 | every getter that ends in a default text yields a defined (truthy) value |
| PredictionResult.RouteString | frontend/src/components/predictor/PredictionResult.jsx:25-42 | the route is always defined (truthy) |
| PredictionResult.RouteFromSubmittedCities | frontend/src/components/predictor/PredictionResult.jsx:36-38 | submitted non-empty cities other than 'N/A' give the route "S → D" |
| PredictionResult.RouteFallback | frontend/src/components/predictor/PredictionResult.jsx:40-41 | without a source, the route is `result.route` or else 'Route not available' |
| PredictionResult.StopsWording | frontend/src/components/predictor/PredictionResult.jsx:79-82 | 0 gives 'Non-stop', 1 gives '1 stop', n > 1 gives 'n stops'; a negative or fractional value below 1, and undefined, give 'Stops not specified' |
| PredictionResult.StopLabelsAreNotNumbers | frontend/src/components/predictor/PredictionResult.jsx:79-82 | a stops text that does not convert to a number, like the form's labels 'Non-stop' or '2 stops', is shown as 'Stops not specified' |
| PredictionResult.Details | frontend/src/components/predictor/PredictionResult.jsx:91-100 | every `flight_details` entry is defined (truthy) and the stops text is never empty, whatever keys the reply has |
| PredictionResult.Render | frontend/src/components/predictor/PredictionResult.jsx:18-143 | a falsy result renders nothing; otherwise the card shows the chained price, a defined formatted price, the band of that price and the flight details |
| PredictionResult.ClassDefaultsToEconomy | frontend/src/components/predictor/PredictionResult.jsx:50-54 | without any class key, the class shown is 'Economy' |
| Backend.Native | backend/app.py:59-62 | a numpy integer becomes the Python int of the same value, and a numpy float the Python float of the same value |
| Backend.Convert | backend/app.py:57-69 | numpy scalars become Python numbers and arrays become lists of them; dicts keep their keys and lists their length, each entry converted; every other value (tuples included) is unchanged; the result holds no numpy value outside tuples |
| Backend.ConvertKeepsNative | backend/app.py:57-69 | a value without numpy is returned unchanged |
| Backend.ConvertIdempotent | backend/app.py:57-69 | converting twice equals converting once |
| Backend.MissingIn | backend/app.py:131 | the comprehension keeps exactly the absent or falsy required fields, in fixed order |
| Backend.NoneMissing | backend/app.py:131-132 | when every required field is truthy, nothing is missing |
| Backend.PredictFlightPrice | backend/app.py:71-91 | no model: "Model not loaded"; with a model, the price is the pipeline's answer, and a failure of the pipeline is a prediction error carrying its reason |
| Backend.Predict | backend/app.py:122-158 | a non-dict body is refused; missing fields are refused with all of them in fixed order; a priced request had every required field truthy, and its features copy them; duration and days left default to 2.5 and 15 only when the key is absent; a present duration that `float()` cannot convert is refused with that value, and then a present days left that `int()` cannot convert; a priced request had a loaded model whose answer for its features is the price, and its duration and days left are `float()` and `int()` of the values sent when present |
| Backend.WellFormedBodyReachesModel | backend/app.py:129-147 | a body with the required fields truthy and each number that is present convertible passes every check; with a model it is priced at the pipeline's answer for the required fields and the two numbers (converted when present, 2.5 and 15 when absent), or refused with the pipeline's error; without a model it is refused with "Model not loaded" |
| Backend.Respond | backend/app.py:150-158 | 200 iff priced; every refusal is a 400 with `success: False` and the error text; a priced reply is `success: True`, with `predicted_price` the price rounded to two places and `formatted_price` ₹ followed by the price with thousands separators, and holds no numpy value |
| Backend.PredictEndpoint | backend/app.py:121-158 | the handler answers 200 or 400; without a model always 400 with an error; a 200 reply carries the loaded model's answer, rounded, for the features `predict` built from this body; a 400 reply carries the text of the fault `predict` refused this body with |
| Backend.NoModelNoPrice | backend/app.py:75-76 | without a model, no request is priced; the refusal is "Model not loaded" exactly when the body passes the earlier checks |
| Backend.DefaultsOnlyForAbsentKeys | backend/app.py:143-144 | a duration sent as 0 stays 0 (the client would have sent 2.5); an empty duration string is refused where `float("")` raises |
| Backend.ZeroDurationKept | backend/app.py:143-144 | a duration sent as 0 with days left absent is priced with duration 0 and days left 15 |
| Backend.EmptyDurationRefused | backend/app.py:143 | a duration sent as "" is refused with that value wherever `float("")` raises |
| Backend.HealthCheck | backend/app.py:164-172 | status is always 'healthy', with 200; `model_status` is 'loaded' iff a model is loaded |
| Backend.ModelInfo | backend/app.py:175-186 | 404 with "Model not loaded" iff no model is loaded; otherwise 200, `success`, `model_loaded`, and performance and parameters with no numpy value outside tuples |
| EndToEnd.FormValidImpliesApiValid | frontend/src/services/api.js:204-231 | whatever the form's validator accepts, the pre-send validator accepts too, provided `Number()` reads a numeric text the form's parser finds in range as a number the pre-send validator accepts |
| EndToEnd.ApiValidatorIsLaxer | frontend/src/components/predictor/PredictionForm.jsx:62-75 | equal cities and a 30-hour duration pass the pre-send validator, while the form flags exactly the destination and the duration |
| EndToEnd.SameCitiesNeverSubmitted | frontend/src/components/predictor/PredictionForm.jsx:100-102 | equal cities make the form invalid, so nothing is submitted |
| EndToEnd.WireKeepsTruthiness | backend/app.py:131 | a scalar keeps its truthiness across the JSON hop to Python |
| EndToEnd.NumbersCrossTheWire | backend/app.py:143-144 | a number sent by the client converts back to itself with `float()`, and a whole one with `int()` |
| EndToEnd.FormattedPayloadAccepted | backend/app.py:129-147 | a payload the pre-send validator accepted and the formatter produced gets past the service's checks; the model sees the client's duration and days left |
| EndToEnd.HealthReplyReadsHealthy | backend/app.py:164-172 | every health reply that reaches the client reads as healthy, loaded model or not |
| EndToEnd.ClientPathsAgainstRoutes | frontend/src/services/api.js:4-9 | the client's predict and options paths are service routes; its `/api/health` and `/api/model-info` paths are not, since the service routes `/health` and `/model-info` |
| EndToEnd.IndiGoQueryPassesForm | frontend/src/components/predictor/PredictionForm.jsx:42-87 | the Delhi–Mumbai IndiGo query passes the form |
| EndToEnd.IndiGoQueryPassesApi | frontend/src/services/api.js:204-231 | the same query passes the pre-send validator |
| EndToEnd.IndiGoQuerySentUnchanged | frontend/src/services/api.js:234-246 | the same query is sent exactly as the form holds it |
| EndToEnd.PriceReplyShown | frontend/src/components/predictor/PredictionResult.jsx:21-22 | a reply of 5823 shows as the rupee sign followed by the locale's rendering of 5823, in the Medium band |

Several members model a whole source function and have their contract stated in the lemma rows above:
- `ApiService.Retry` (api.js:176-201) by `RetryFrom`, `RetryWaits` and the run lemmas;
- `ApiService.ClassifyMessage` (api.js:89-121) by `ClassifyMessageByCategory`, `TimeoutTakesPrecedence` and `ClassifyMessageRange`;
- `PredictionHooks.FailureText` (usePrediction.js:43-56) by `UnsuccessfulReplyText` and `FinishPrediction`;
- `PredictionForm.FormErrors` (PredictionForm.jsx:42-84) by `FormErrorsExactly`, `FormValidIff` and `ComputeErrors`;
- `PredictionResult.PriceLevelOf` (PredictionResult.jsx:137-141) by `PriceLevelBands` and `PriceLevelMonotone`;
- `PredictionResult.StopsText` (PredictionResult.jsx:79-82) by `StopsWording` and `StopLabelsAreNotNumbers`;
- the six getters `AirlineOf`, `ClassOf`, `DurationOf`, `DepartureOf`, `ArrivalOf` and `DaysLeftOf` (PredictionResult.jsx:44-89) by `Lookup`, `Details` and `ClassDefaultsToEconomy`.

### Behaviour worth knowing

- The client requests `/api/health` and `/api/model-info`, while the service routes `/health` and
  `/model-info` (`EndToEnd.ClientPathsAgainstRoutes`). The two requests reach their handlers only
  through a proxy that strips the `/api` prefix. Without one they are answered 404: `useHealthCheck`
  records `healthy: false` and stores the not-found text as its error, which the page does not
  display; the page shows "Service Offline" (`frontend/src/components/pages/PredictPrices.jsx`
  lines 19 and 77-81).
  `EndToEnd.HealthReplyReadsHealthy` is about a health reply that does reach the client.

- A reply of 5823 without `formatted_price` is shown as `₹` followed by `toLocaleString()` of
  the number, not the digits as written; in the common locales that inserts grouping
  separators ("5,823"). The model keeps `toLocaleString` abstract, and
  `EndToEnd.PriceReplyShown` states exactly what the card shows.
- Equal source and destination cities are caught only by the form; `validateFlightData` has
  no same-city rule. `EndToEnd.SameCitiesNeverSubmitted` and `EndToEnd.ApiValidatorIsLaxer`
  state both halves.
- A query submitted through the form carries its stops as a label ('Non-stop', '2 stops').
  `getStops` only recognises numbers, so such a prediction shows 'Stops not specified'
  (`PredictionResult.StopLabelsAreNotNumbers`).

## Left out

- The axios transport is not modelled: instance creation, headers, the 30-second timeout, interceptor registration, the request interceptor and console logging. A request is its outcome (`Attempt`), and the timeout appears only as the `ECONNABORTED` code.
- Sleeping is not modelled: `setTimeout` waits are the returned delays.
- JavaScript's string-to-number rules (`Number`, `parseFloat`, `parseInt`), number-to-string, `toLocaleString` and the message of the TypeError thrown by reading a property of null or undefined are abstract functions of `JsEnv`. NaN and ±Infinity are never stored as numbers; a NaN parse is `None`.
- JsSemantics.ParseInt: a number argument is truncated; JavaScript's detour through the number's string form (`parseInt(5e-7)` is 5) is not modelled.
- JsSemantics.StrictEquals: two objects are never `===`, as for distinct references; aliasing of one object is not modelled.
- ApiService.BodyErrorOr: the interceptor assigns a reply body's `error` to `error.message` as it is, and the hooks store that value unchanged; the model turns a non-string `error` (a number, an object) into its string form instead, so the stored message is always a string.
- ApiService.GetPredictionWithRetry: the 2xx body is the resolved value as it is; axios' status validation and JSON parsing are part of the abstract transport.
- PredictionHooks.NewPrediction: spreading a non-object reply is modelled as spreading nothing; the per-character keys of a spread string are not modelled.
- Timestamps are not modelled: `new Date().toISOString()` is a parameter `now`, and the service's `datetime.now()` fields are omitted from its replies (Backend.Respond, Backend.HealthCheck, Backend.ModelInfo).
- The clipboard and share handlers of the result card, the `copied` state and the band colours are not modelled.
- The model-inference path is not modelled: `inverse_transform_target`, the sklearn pipeline, `joblib` loading and the pandas frame. A loaded model is a function from features to a price or an error (`ModelData.infer`).
- Price rounding and formatting in the service (`round(p, 2)`, `:,.0f`) are abstract functions of `PyEnv`.
- Python's own exception texts (for a non-dict body or a failed `float`/`int`) are the abstract `PyEnv.raisedText`; the service's own texts ("Missing fields: …", "Model not loaded", "Prediction error: …") are concrete.
- PredictionHooks.HealthMonitor.CheckHealth: for a null or undefined reply the queued updater reads `result.status` and throws when React runs it during rendering. What React then does (the render error and whether any of the queued state is committed) is not modelled. The model keeps the state the first update set: loading, no error, `healthy` and `lastCheck` unchanged.
- PredictionHooks.PredictionStore.PredictPrice: the `await` is one atomic step. Another action (a second `predictPrice`, `clearHistory`) may run between `StartPrediction` and `FinishPrediction` in the source; such interleavings are not explored.
- Backend.Predict: the body is given already decoded. A malformed JSON body, and the choice between `get_json()` and `form.to_dict()`, are not modelled.
- Backend.PyTruthy: numpy arrays are one-dimensional and numeric; the error numpy raises for the truth value of a longer array is not modelled, and never arises for a decoded request body. numpy booleans are not modelled.
- Backend.ToInt: `int()` of a float is truncation; NaN and infinite floats, which make it raise, are not part of `PyValue`.
- Flask routing, CORS, the `/api/options` and `/` routes, `load_model` and `initialize_sample_data` (global assignments at import time) are not modelled. `model_data` is a parameter of each handler.
- The other presentational components, the static page script and the unused endpoint constants of `constants.js` are not part of this model.

=== FILE: api_service.dfy ===
/**
 * The client's request pipeline (frontend/src/services/api.js): the
 * pre-send validator, the payload formatter, the response interceptor's
 * error classification, the bounded retry loop with exponential backoff,
 * and their composition `getPredictionWithRetry`.
 *
 * The HTTP transport is abstract: the outcome of the i-th call of the
 * request function is given by a function of i, and each sleep of the
 * retry loop is reported as a delay in milliseconds instead of waited for.
 */
module ApiService {
  import opened Wrappers
  import opened JsSemantics
  import opened Constants

  // ERROR_MESSAGES of api.js (the interceptor's own table).
  const NetworkErrorText := "Network connection failed. Please check your internet connection."
  const TimeoutErrorText := "Request timed out. Please try again."
  const ServerErrorText := "Server error occurred. Please try again later."
  const ValidationErrorText := "Invalid data provided. Please check your inputs."
  const PredictionFailedText := "Failed to predict flight price. Please try again."
  const UnknownErrorText := "An unexpected error occurred. Please try again."
  const UnauthorizedText := "Unauthorized. Please login again."
  const ForbiddenText := "Access forbidden."
  const NotFoundText := "API endpoint not found."

  // API_ENDPOINTS of api.js: the paths the client requests.
  const PredictPath := "/api/predict"
  const HealthPath := "/api/health"
  const ModelInfoPath := "/api/model-info"
  const OptionsPath := "/api/options"

  /** UI_CONFIG of api.js */
  const TimeoutDurationMs := 30000
  const MaxRetries: nat := 3

  /** axios' error code for a request that hit its timeout. */
  const TimeoutCode := "ECONNABORTED"

  /**
   * The base URL of every request. Both runtime modes resolve to the empty
   * string, so requests are always same-origin.
   */
  function GetApiBaseUrl(nodeEnv: string): (url: string)
    ensures url == ""
  {
    if nodeEnv == "development" then "" else ""
  }

  // ---------------------------------------------------------------------
  // Error classification (the response interceptor)
  // ---------------------------------------------------------------------

  /** `error.response`: the status and the parsed body of a non-2xx reply. */
  datatype HttpResponse = HttpResponse(status: int, data: Value)

  /** A failed axios request as the interceptor sees it. */
  datatype TransportError = TransportError(
    code: string,
    response: Option<HttpResponse>,
    requestSent: bool,
    message: string)

  /** `data?.error || fallback`, as the message string it becomes. */
  function BodyErrorOr(js: JsEnv, data: Value, fallback: string): string {
    var e := Field(data, "error");
    if Truthy(e) then ToString(js, e) else fallback
  }

  /** The message the interceptor writes into a failed request's error. */
  function ClassifyMessage(js: JsEnv, e: TransportError): string {
    if e.code == TimeoutCode then TimeoutErrorText
    else if e.response.Some? then
      var status, data := e.response.value.status, e.response.value.data;
      if status == 400 then BodyErrorOr(js, data, ValidationErrorText)
      else if status == 401 then UnauthorizedText
      else if status == 403 then ForbiddenText
      else if status == 404 then NotFoundText
      else if status == 500 then BodyErrorOr(js, data, ServerErrorText)
      else BodyErrorOr(js, data, ServerErrorText)
    else if e.requestSent then NetworkErrorText
    else UnknownErrorText
  }

  /** The interceptor overwrites the error's message and rethrows it. */
  function Intercept(js: JsEnv, e: TransportError): (e': TransportError)
    ensures e'.code == e.code && e'.response == e.response && e'.requestSent == e.requestSent
    ensures e'.message == ClassifyMessage(js, e)
  {
    e.(message := ClassifyMessage(js, e))
  }

  /** The kinds of failure the interceptor tells apart, decided without messages. */
  datatype Category = Timeout | Validation | Unauthorized | Forbidden | NotFound | ServerFault | Network | Unknown

  function CategoryOf(e: TransportError): Category {
    if e.code == TimeoutCode then Timeout
    else if e.response.Some? then
      match e.response.value.status
      case 400 => Validation
      case 401 => Unauthorized
      case 403 => Forbidden
      case 404 => NotFound
      case _ => ServerFault
    else if e.requestSent then Network
    else Unknown
  }

  /**
   * The classifier gives each category its message: a fixed one, except
   * that validation and server faults prefer the server's own `error` text.
   */
  lemma ClassifyMessageByCategory(js: JsEnv, e: TransportError)
    ensures var m := ClassifyMessage(js, e);
      match CategoryOf(e)
      case Timeout => m == TimeoutErrorText
      case Validation => m == BodyErrorOr(js, e.response.value.data, ValidationErrorText)
      case Unauthorized => m == UnauthorizedText
      case Forbidden => m == ForbiddenText
      case NotFound => m == NotFoundText
      case ServerFault => m == BodyErrorOr(js, e.response.value.data, ServerErrorText)
      case Network => m == NetworkErrorText
      case Unknown => m == UnknownErrorText
  {
  }

  /** A timeout is reported as such whatever else the error carries. */
  lemma TimeoutTakesPrecedence(js: JsEnv, e: TransportError)
    requires e.code == TimeoutCode
    ensures ClassifyMessage(js, e) == TimeoutErrorText
    ensures forall r :: ClassifyMessage(js, e.(response := r)) == TimeoutErrorText
  {
  }

  /** The message is one of the fixed texts or the server's `error` text. */
  lemma ClassifyMessageRange(js: JsEnv, e: TransportError)
    ensures var m := ClassifyMessage(js, e);
      m in {TimeoutErrorText, ValidationErrorText, UnauthorizedText, ForbiddenText,
            NotFoundText, ServerErrorText, NetworkErrorText, UnknownErrorText}
      || (e.response.Some? && e.response.value.status !in {401, 403, 404}
          && m == ToString(js, Field(e.response.value.data, "error")))
  {
  }

  // ---------------------------------------------------------------------
  // The retry loop
  // ---------------------------------------------------------------------

  /** The outcome of one call of the request function. */
  datatype Attempt<T> = Resolved(value: T) | Rejected(error: TransportError)

  /** `error.response?.status >= 400 && error.response?.status < 500` */
  predicate IsClientError(e: TransportError) {
    e.response.Some? && 400 <= e.response.value.status < 500
  }

  /** An attempt after which the loop may try again. */
  predicate Retryable<T>(a: Attempt<T>) {
    a.Rejected? && !IsClientError(a.error)
  }

  function Pow2(n: nat): (p: nat)
    ensures p >= 1
  {
    if n == 0 then 1 else 2 * Pow2(n - 1)
  }

  /** The wait after failed attempt i: `Math.pow(2, i) * 1000` ms. */
  function Backoff(i: nat): nat {
    Pow2(i) * 1000
  }

  /** The waits after attempts 0 .. n-1. */
  function Backoffs(n: nat): (s: seq<nat>)
    ensures |s| == n
  {
    if n == 0 then [] else Backoffs(n - 1) + [Backoff(n - 1)]
  }

  /** The observable run of `retryRequest`: what it settles with, how many calls it made, the waits. */
  datatype RetryRun<T> = RetryRun(result: Attempt<T>, calls: nat, delays: seq<nat>)

  /**
   * The run from attempt i on. It makes attempts i, i+1, ... and stops at the
   * first one that succeeds or fails with a 4xx status, or at attempt
   * maxRetries; the run settles with the outcome of its last call, and it
   * waits Backoff(j) after each earlier attempt j.
   */
  function RetryFrom<T>(attempt: nat -> Attempt<T>, maxRetries: nat, i: nat): (r: RetryRun<T>)
    requires i <= maxRetries
    ensures i < r.calls <= maxRetries + 1
    ensures r.result == attempt(r.calls - 1)
    ensures forall j :: i <= j < r.calls - 1 ==> Retryable(attempt(j))
    ensures r.calls - 1 == maxRetries || !Retryable(attempt(r.calls - 1))
    ensures |r.delays| == r.calls - 1 - i
    ensures forall j :: 0 <= j < |r.delays| ==> r.delays[j] == Backoff(i + j)
    decreases maxRetries - i
  {
    var outcome := attempt(i);
    if !Retryable(outcome) || i == maxRetries then
      RetryRun(outcome, i + 1, [])
    else
      var rest := RetryFrom(attempt, maxRetries, i + 1);
      RetryRun(rest.result, rest.calls, [Backoff(i)] + rest.delays)
  }

  /** The whole run of `retryRequest(requestFn, maxRetries)`. */
  function Retry<T>(attempt: nat -> Attempt<T>, maxRetries: nat): RetryRun<T> {
    RetryFrom(attempt, maxRetries, 0)
  }

  /** Skipping i retryable failures: the run continues as the run from i. */
  lemma {:induction false} RetrySkip<T>(attempt: nat -> Attempt<T>, maxRetries: nat, i: nat)
    requires i <= maxRetries
    requires forall j :: 0 <= j < i ==> Retryable(attempt(j))
    ensures var rest := RetryFrom(attempt, maxRetries, i);
      Retry(attempt, maxRetries) == RetryRun(rest.result, rest.calls, Backoffs(i) + rest.delays)
  {
    if i > 0 {
      RetrySkip(attempt, maxRetries, i - 1);
      var rest := RetryFrom(attempt, maxRetries, i);
      assert RetryFrom(attempt, maxRetries, i - 1) == RetryRun(rest.result, rest.calls, [Backoff(i - 1)] + rest.delays);
      assert Backoffs(i - 1) + ([Backoff(i - 1)] + rest.delays) == Backoffs(i) + rest.delays;
    }
  }

  /**
   * `retryRequest`: call the request function until it succeeds, fails with
   * a 4xx status, or maxRetries + 1 calls have been made, waiting
   * 1000 * 2^i ms after each failed attempt i but the last.
   */
  method RetryRequest<T>(attempt: nat -> Attempt<T>, maxRetries: nat)
    returns (result: Attempt<T>, calls: nat, delays: seq<nat>)
    ensures RetryRun(result, calls, delays) == Retry(attempt, maxRetries)
  {
    var lastError: Option<TransportError> := None;
    calls, delays := 0, [];
    for i := 0 to maxRetries + 1
      invariant calls == i
      invariant forall j :: 0 <= j < i ==> Retryable(attempt(j))
      invariant delays == Backoffs(if i <= maxRetries then i else maxRetries)
      invariant i > 0 ==> lastError == Some(attempt(i - 1).error)
    {
      var outcome := attempt(i);
      calls := calls + 1;
      match outcome {
        case Resolved(v) =>
          RetrySkip(attempt, maxRetries, i);
          return outcome, calls, delays;
        case Rejected(e) =>
          lastError := Some(e);
          if IsClientError(e) {
            RetrySkip(attempt, maxRetries, i);
            return outcome, calls, delays;
          }
          if i < maxRetries {
            delays := delays + [Backoff(i)];
          }
      }
    }
    RetrySkip(attempt, maxRetries, maxRetries);
    result := Rejected(lastError.value);
  }

  function Sum(s: seq<nat>): nat {
    if s == [] then 0 else Sum(s[..|s| - 1]) + s[|s| - 1]
  }

  /** The waits before attempt n add up to 1000 * (2^n - 1) ms. */
  lemma {:induction false} BackoffsTotal(n: nat)
    ensures Sum(Backoffs(n)) == 1000 * (Pow2(n) - 1)
  {
    if n > 0 {
      BackoffsTotal(n - 1);
      assert Backoffs(n)[..n - 1] == Backoffs(n - 1);
    }
  }

  lemma {:induction false} BackoffsAt(n: nat, j: nat)
    requires j < n
    ensures Backoffs(n)[j] == Backoff(j)
  {
    if j < n - 1 {
      BackoffsAt(n - 1, j);
    }
  }

  lemma {:induction false} Pow2Monotone(m: nat, n: nat)
    requires m <= n
    ensures Pow2(m) <= Pow2(n)
  {
    if m < n {
      Pow2Monotone(m, n - 1);
    }
  }

  /**
   * A run makes between 1 and maxRetries + 1 calls, waits exactly once
   * between consecutive calls, and waits 1000 * (2^(calls-1) - 1) ms in all,
   * at most 1000 * (2^maxRetries - 1) ms.
   */
  lemma RetryWaits<T>(attempt: nat -> Attempt<T>, maxRetries: nat)
    ensures var run := Retry(attempt, maxRetries);
      && 1 <= run.calls <= maxRetries + 1
      && run.delays == Backoffs(run.calls - 1)
      && Sum(run.delays) == 1000 * (Pow2(run.calls - 1) - 1)
      && Sum(run.delays) <= 1000 * (Pow2(maxRetries) - 1)
  {
    var run := Retry(attempt, maxRetries);
    var n := run.calls - 1;
    forall j | 0 <= j < n ensures run.delays[j] == Backoffs(n)[j] {
      BackoffsAt(n, j);
    }
    assert run.delays == Backoffs(n);
    BackoffsTotal(n);
    Pow2Monotone(n, maxRetries);
  }

  /** With the default of three retries: at most four calls and 7 s of waiting. */
  lemma DefaultRetryBudget<T>(attempt: nat -> Attempt<T>)
    ensures Retry(attempt, MaxRetries).calls <= 4
    ensures Sum(Retry(attempt, MaxRetries).delays) <= 7000
  {
    RetryWaits(attempt, MaxRetries);
  }

  /** A first call that succeeds is the whole run. */
  lemma FirstSuccessEndsRun<T>(attempt: nat -> Attempt<T>, maxRetries: nat)
    requires attempt(0).Resolved?
    ensures Retry(attempt, maxRetries) == RetryRun(attempt(0), 1, [])
  {
  }

  /** A call that fails with a 4xx status ends the run with that error, without a wait after it. */
  lemma ClientErrorEndsRun<T>(attempt: nat -> Attempt<T>, maxRetries: nat, k: nat)
    requires k <= maxRetries
    requires forall j :: 0 <= j < k ==> Retryable(attempt(j))
    requires attempt(k).Rejected? && IsClientError(attempt(k).error)
    ensures Retry(attempt, maxRetries) == RetryRun(attempt(k), k + 1, Backoffs(k))
  {
    RetrySkip(attempt, maxRetries, k);
  }

  /** When every call fails and may be retried, the run rethrows the error of the last call. */
  lemma ExhaustedRunRethrowsLast<T>(attempt: nat -> Attempt<T>, maxRetries: nat)
    requires forall j :: 0 <= j <= maxRetries ==> Retryable(attempt(j))
    ensures Retry(attempt, maxRetries) == RetryRun(attempt(maxRetries), maxRetries + 1, Backoffs(maxRetries))
  {
    RetrySkip(attempt, maxRetries, maxRetries);
  }

  /** A 404 on the first call: one call, no wait, the 404 is the result. */
  lemma NotFoundOnce<T>(attempt: nat -> Attempt<T>)
    requires attempt(0).Rejected? && attempt(0).error.response.Some?
    requires attempt(0).error.response.value.status == 404
    ensures Retry(attempt, MaxRetries) == RetryRun(attempt(0), 1, [])
  {
  }

  /** Two network failures and then a success: three calls, waits of 1 s and 2 s. */
  lemma NetworkTwiceThenSuccess<T>(attempt: nat -> Attempt<T>)
    requires attempt(0).Rejected? && attempt(0).error.response.None?
    requires attempt(1).Rejected? && attempt(1).error.response.None?
    requires attempt(2).Resolved?
    ensures Retry(attempt, MaxRetries) == RetryRun(attempt(2), 3, [1000, 2000])
  {
    RetrySkip(attempt, MaxRetries, 2);
    assert Backoffs(2) == [1000, 2000];
  }

  // ---------------------------------------------------------------------
  // Pre-send validation and formatting
  // ---------------------------------------------------------------------

  /** a is b with some elements left out, order kept. */
  predicate IsSubsequence(a: seq<string>, b: seq<string>)
    decreases |b|
  {
    a == [] || (b != [] && ((a[0] == b[0] && IsSubsequence(a[1..], b[1..])) || IsSubsequence(a, b[1..])))
  }

  /** `fields.filter(field => !data[field])` */
  function MissingFields(fields: seq<string>, data: Record): (m: seq<string>)
    ensures forall f :: f in m <==> f in fields && !Truthy(Get(data, f))
    ensures IsSubsequence(m, fields)
  {
    if fields == [] then []
    else
      var rest := MissingFields(fields[1..], data);
      if Truthy(Get(data, fields[0])) then rest
      else
        assert ([fields[0]] + rest)[1..] == rest;
        [fields[0]] + rest
  }

  /** `xs.join(sep)` */
  function Join(xs: seq<string>, sep: string): string {
    if xs == [] then ""
    else if |xs| == 1 then xs[0]
    else xs[0] + sep + Join(xs[1..], sep)
  }

  const DurationNotPositive := "Duration must be a positive number"
  const DaysLeftNotPositive := "Days left must be a positive number"

  /** `flightData.duration && (isNaN(flightData.duration) || flightData.duration <= 0)` */
  predicate DurationRejected(js: JsEnv, v: Value) {
    Truthy(v) && (ToNumber(js, v).None? || ToNumber(js, v).value <= 0.0)
  }

  /** `flightData.days_left && (isNaN(flightData.days_left) || flightData.days_left < 1)` */
  predicate DaysLeftRejected(js: JsEnv, v: Value) {
    Truthy(v) && (ToNumber(js, v).None? || ToNumber(js, v).value < 1.0)
  }

  /**
   * `validateFlightData`: Ok(true), or the message of the error it throws.
   * Checks in turn: the missing required fields (all of them, in the fixed
   * order), then duration, then days_left.
   */
  function ValidateFlightData(js: JsEnv, data: Record): (r: Result<bool, string>)
    ensures r.Ok? <==>
      (forall f :: f in RequiredFields ==> Truthy(Get(data, f)))
      && !DurationRejected(js, Get(data, Duration))
      && !DaysLeftRejected(js, Get(data, DaysLeft))
    ensures r.Ok? ==> r.value
    ensures (exists f :: f in RequiredFields && !Truthy(Get(data, f))) ==>
      r == Err("Missing required fields: " + Join(MissingFields(RequiredFields, data), ", "))
    ensures (forall f :: f in RequiredFields ==> Truthy(Get(data, f))) ==>
      && (DurationRejected(js, Get(data, Duration)) ==> r == Err(DurationNotPositive))
      && (!DurationRejected(js, Get(data, Duration)) && DaysLeftRejected(js, Get(data, DaysLeft)) ==>
            r == Err(DaysLeftNotPositive))
  {
    var missing := MissingFields(RequiredFields, data);
    if |missing| > 0 then
      assert missing[0] in missing;
      Err("Missing required fields: " + Join(missing, ", "))
    else if DurationRejected(js, Get(data, Duration)) then
      Err(DurationNotPositive)
    else if DaysLeftRejected(js, Get(data, DaysLeft)) then
      Err(DaysLeftNotPositive)
    else
      Ok(true)
  }

  /** `parsed || fallback`: NaN and 0 both give way to the fallback. */
  function NonZeroOr(parsed: Option<real>, fallback: real): real {
    if parsed.Some? && parsed.value != 0.0 then parsed.value else fallback
  }

  const DurationFallback: real := 2.5
  const DaysLeftFallback: int := 15

  /**
   * `formatFlightData`: exactly the nine canonical keys; the seven string
   * fields copied as they are; duration parsed as a float and days_left as
   * an integer, each replaced by its fallback when the parse is NaN or 0.
   */
  function FormatFlightData(js: JsEnv, data: Record): (r: Record)
    ensures r.Keys == set f | f in FormFields
    ensures forall f :: f in RequiredFields ==> r[f] == Get(data, f)
    ensures var d := ParseFloat(js, Get(data, Duration));
      r[Duration] == Num(if d.Some? && d.value != 0.0 then d.value else DurationFallback)
    ensures var k := ParseInt(js, Get(data, DaysLeft));
      r[DaysLeft] == Num(if k.Some? && k.value != 0 then k.value as real else DaysLeftFallback as real)
  {
    var k := ParseInt(js, Get(data, DaysLeft));
    map[
      Airline := Get(data, Airline),
      SourceCity := Get(data, SourceCity),
      DestinationCity := Get(data, DestinationCity),
      DepartureTime := Get(data, DepartureTime),
      ArrivalTime := Get(data, ArrivalTime),
      Stops := Get(data, Stops),
      Class := Get(data, Class),
      Duration := Num(NonZeroOr(ParseFloat(js, Get(data, Duration)), DurationFallback)),
      DaysLeft := Num(NonZeroOr(if k.Some? then Some(k.value as real) else None, DaysLeftFallback as real))]
  }

  /** Formatting an already formatted payload changes nothing. */
  lemma FormatIdempotent(js: JsEnv, data: Record)
    ensures FormatFlightData(js, FormatFlightData(js, data)) == FormatFlightData(js, data)
  {
    var once := FormatFlightData(js, data);
    var twice := FormatFlightData(js, once);
    var k := ParseInt(js, Get(data, DaysLeft));
    var days := if k.Some? && k.value != 0 then k.value else DaysLeftFallback;
    assert once[DaysLeft] == Num(days as real);
    TruncOfInteger(days);
    assert twice[DaysLeft] == once[DaysLeft];
    assert twice[Duration] == once[Duration];
    assert forall f :: f in RequiredFields ==> twice[f] == once[f];
    assert twice.Keys == once.Keys;
    forall f | f in once.Keys ensures twice[f] == once[f] {
      assert f in FormFields;
    }
  }

  /** The formatter's fallbacks are the form's default values. */
  lemma FallbacksAreFormDefaults()
    ensures DefaultFormValues[Duration] == Num(DurationFallback)
    ensures DefaultFormValues[DaysLeft] == Num(DaysLeftFallback as real)
  {
  }

  // ---------------------------------------------------------------------
  // getPredictionWithRetry
  // ---------------------------------------------------------------------

  /** What `getPredictionWithRetry` can throw: a validation error or a request error. */
  datatype Failure = ValidationFailed(text: string) | RequestFailed(error: TransportError) {
    function Message(): string {
      match this
      case ValidationFailed(t) => t
      case RequestFailed(e) => e.message
    }
  }

  /**
   * One call of `getPredictionWithRetry`: the body it resolves with or what
   * it throws, the payload it sent (if any), and the calls and waits made.
   */
  datatype PredictionCall = PredictionCall(
    result: Result<Value, Failure>,
    sent: Option<Record>,
    calls: nat,
    delays: seq<nat>)

  /** `predictFlightPrice` seen from the retry loop: a rejection passes through the interceptor. */
  function Intercepted(js: JsEnv, a: Attempt<Value>): Attempt<Value> {
    match a
    case Resolved(v) => Resolved(v)
    case Rejected(e) => Rejected(Intercept(js, e))
  }

  /**
   * The request function `() => this.predictFlightPrice(payload)`, call by
   * call; the interceptor keeps whether a call may be retried.
   */
  function PostAttempts(js: JsEnv, transport: (Record, nat) -> Attempt<Value>, payload: Record)
    : (attempt: nat -> Attempt<Value>)
    ensures forall i :: attempt(i) == Intercepted(js, transport(payload, i))
    ensures forall i :: Retryable(attempt(i)) <==> Retryable(transport(payload, i))
  {
    (i: nat) => Intercepted(js, transport(payload, i))
  }

  /**
   * The retry run over the posts of one payload, stated in terms of the
   * transport: earlier calls were retryable, the last one ends the run, and
   * the waits are the doubling backoffs.
   */
  lemma PostedRun(js: JsEnv, transport: (Record, nat) -> Attempt<Value>, payload: Record)
    ensures var run := Retry(PostAttempts(js, transport, payload), MaxRetries);
      && 1 <= run.calls <= MaxRetries + 1
      && run.result == Intercepted(js, transport(payload, run.calls - 1))
      && (forall j :: 0 <= j < run.calls - 1 ==> Retryable(transport(payload, j)))
      && (run.calls - 1 == MaxRetries || !Retryable(transport(payload, run.calls - 1)))
      && run.delays == Backoffs(run.calls - 1)
  {
    RetryWaits(PostAttempts(js, transport, payload), MaxRetries);
  }

  /**
   * Validate, then format, then post with retries. `transport(p, i)` is the
   * outcome of the i-th POST of payload p.
   */
  function GetPredictionWithRetry(js: JsEnv, data: Record, transport: (Record, nat) -> Attempt<Value>)
    : (r: PredictionCall)
    ensures ValidateFlightData(js, data).Err? ==>
      r == PredictionCall(Err(ValidationFailed(ValidateFlightData(js, data).error)), None, 0, [])
    ensures ValidateFlightData(js, data).Ok? ==>
      && r.sent == Some(FormatFlightData(js, data))
      && 1 <= r.calls <= MaxRetries + 1
      && (r.result.Ok? <==> transport(r.sent.value, r.calls - 1).Resolved?)
      && (r.result.Ok? ==> r.result.value == transport(r.sent.value, r.calls - 1).value)
      && (r.result.Err? ==> r.result.error == RequestFailed(Intercept(js, transport(r.sent.value, r.calls - 1).error)))
    ensures ValidateFlightData(js, data).Ok? ==>
      var p := FormatFlightData(js, data);
      && (forall j :: 0 <= j < r.calls - 1 ==> Retryable(transport(p, j)))
      && (r.calls - 1 == MaxRetries || !Retryable(transport(p, r.calls - 1)))
      && r.delays == Backoffs(r.calls - 1)
  {
    match ValidateFlightData(js, data)
    case Err(message) => PredictionCall(Err(ValidationFailed(message)), None, 0, [])
    case Ok(_) =>
      var payload := FormatFlightData(js, data);
      var run := Retry(PostAttempts(js, transport, payload), MaxRetries);
      PostedRun(js, transport, payload);
      var result := match run.result
        case Resolved(body) => Ok(body)
        case Rejected(e) => Err(RequestFailed(e));
      PredictionCall(result, Some(payload), run.calls, run.delays)
  }
}

=== FILE: backend.dfy ===
/**
 * The Flask service (backend/app.py): the `/predict` request handling up to
 * the model call, `convert_numpy_types`, and the guards that `health_check`,
 * `model_info` and `predict_flight_price` put on the loaded model.
 */
module Backend {
  import opened Wrappers
  import JsSemantics
  import opened Constants
  import ApiService

  /** A numpy scalar, or an element of a numpy array. */
  datatype NpNumber = NpInt(i: int) | NpFloat(f: real)

  /** The Python values the service handles. */
  datatype PyValue =
    | PyNone
    | PyBool(b: bool)
    | PyInt(i: int)
    | PyFloat(f: real)
    | PyStr(s: string)
    | PyList(items: seq<PyValue>)
    | PyTuple(members: seq<PyValue>)
    | PyDict(entries: map<string, PyValue>)
    | NpScalar(n: NpNumber)
    | NpArray(elems: seq<NpNumber>)   // one-dimensional

  /** `dict.get(key)` */
  function DictGet(m: map<string, PyValue>, key: string): PyValue {
    if key in m then m[key] else PyNone
  }

  /** Python truthiness (`not v` is its negation). */
  predicate PyTruthy(v: PyValue) {
    match v
    case PyNone => false
    case PyBool(b) => b
    case PyInt(i) => i != 0
    case PyFloat(f) => f != 0.0
    case PyStr(s) => s != ""
    case PyList(xs) => xs != []
    case PyTuple(xs) => xs != []
    case PyDict(m) => m != map[]
    case NpScalar(n) => n != NpInt(0) && n != NpFloat(0.0)
    case NpArray(es) => |es| == 1 && es[0] != NpInt(0) && es[0] != NpFloat(0.0)
  }

  // ---------------------------------------------------------------------
  // convert_numpy_types
  // ---------------------------------------------------------------------

  /** `int(x)` / `float(x)` of a numpy number. */
  function Native(n: NpNumber): (v: PyValue)
    ensures n.NpInt? ==> v == PyInt(n.i)
    ensures n.NpFloat? ==> v == PyFloat(n.f)
  {
    match n
    case NpInt(i) => PyInt(i)
    case NpFloat(f) => PyFloat(f)
  }

  /** No numpy value reachable through lists and dicts. */
  predicate NumpyFree(v: PyValue) {
    match v
    case NpScalar(_) => false
    case NpArray(_) => false
    case PyList(xs) => forall i :: 0 <= i < |xs| ==> NumpyFree(xs[i])
    case PyDict(m) => forall k :: k in m ==> NumpyFree(m[k])
    case _ => true
  }

  /**
   * `convert_numpy_types`: numpy scalars become Python numbers, numpy
   * arrays lists of them; dicts keep their keys and lists their length,
   * each entry converted; every other value (a tuple included) is returned
   * as it is.
   */
  function Convert(v: PyValue): (r: PyValue)
    ensures v.NpScalar? ==> r == Native(v.n)
    ensures v.NpArray? ==>
      && r.PyList? && |r.items| == |v.elems|
      && forall i :: 0 <= i < |v.elems| ==> r.items[i] == Native(v.elems[i])
    ensures v.PyDict? ==>
      && r.PyDict? && r.entries.Keys == v.entries.Keys
      && forall k :: k in v.entries ==> r.entries[k] == Convert(v.entries[k])
    ensures v.PyList? ==>
      && r.PyList? && |r.items| == |v.items|
      && forall i :: 0 <= i < |v.items| ==> r.items[i] == Convert(v.items[i])
    ensures !(v.NpScalar? || v.NpArray? || v.PyDict? || v.PyList?) ==> r == v
    ensures NumpyFree(r)
  {
    match v
    case NpScalar(n) => Native(n)
    case NpArray(es) => PyList(seq(|es|, i requires 0 <= i < |es| => Native(es[i])))
    case PyDict(m) => PyDict(map k | k in m :: Convert(m[k]))
    case PyList(xs) => PyList(seq(|xs|, i requires 0 <= i < |xs| => Convert(xs[i])))
    case _ => v
  }

  /** A value with no numpy in it comes back unchanged. */
  lemma {:induction false} ConvertKeepsNative(v: PyValue)
    requires NumpyFree(v)
    ensures Convert(v) == v
  {
    match v
    case PyDict(m) =>
      forall k | k in m ensures Convert(m[k]) == m[k] {
        ConvertKeepsNative(m[k]);
      }
      assert Convert(v).entries == m;
    case PyList(xs) =>
      forall i | 0 <= i < |xs| ensures Convert(xs[i]) == xs[i] {
        ConvertKeepsNative(xs[i]);
      }
      assert Convert(v).items == xs;
    case _ =>
  }

  /** Converting twice is converting once. */
  lemma ConvertIdempotent(v: PyValue)
    ensures Convert(Convert(v)) == Convert(v)
  {
    ConvertKeepsNative(Convert(v));
  }

  // ---------------------------------------------------------------------
  // /predict
  // ---------------------------------------------------------------------

  /**
   * The Python built-ins applied to strings and the price formatting,
   * which the model keeps abstract: `float(s)` and `int(s)` (None where they
   * raise ValueError), `round(p, 2)`, the `:,.0f` format, and the text of
   * an exception Python raises itself.
   */
  datatype PyEnv = PyEnv(
    parseFloat: string -> Option<real>,
    parseInt: string -> Option<int>,
    round2: real -> real,
    thousands: real -> string,
    raisedText: Fault -> string)

  /** Why `predict` answers 400. */
  datatype Fault =
    | NotADict                                  // `data.get` on a non-dict body
    | MissingFields(fields: seq<string>)
    | BadNumber(field: string, value: PyValue)  // `float(...)` / `int(...)` raised
    | ModelNotLoaded
    | PredictionError(reason: string)

  /**
   * `float(v)` on a value of a decoded JSON body; None where Python raises.
   * Numpy values never occur in such a body, so they are not given a result.
   */
  function ToFloat(py: PyEnv, v: PyValue): Option<real> {
    match v
    case PyBool(b) => Some(if b then 1.0 else 0.0)
    case PyInt(i) => Some(i as real)
    case PyFloat(f) => Some(f)
    case PyStr(s) => py.parseFloat(s)
    case _ => None
  }

  /**
   * `int(v)` on a value of a decoded JSON body: floats are truncated toward
   * zero; None where Python raises. Numpy values never occur in such a body.
   */
  function ToInt(py: PyEnv, v: PyValue): Option<int> {
    match v
    case PyBool(b) => Some(if b then 1 else 0)
    case PyInt(i) => Some(i)
    case PyFloat(f) => Some(JsSemantics.Trunc(f))
    case PyStr(s) => py.parseInt(s)
    case _ => None
  }

  const DurationDefault: real := 2.5
  const DaysLeftDefault: int := 15

  /** The one-row frame handed to the model. */
  datatype Features = Features(fields: map<string, PyValue>, duration: real, daysLeft: int)

  /** The loaded pipeline, with `infer` standing for its prediction. */
  datatype ModelData = ModelData(entries: map<string, PyValue>, infer: Features -> Result<real, string>)

  /** `[field for field in required_fields if not data.get(field)]` */
  function MissingIn(fields: seq<string>, data: map<string, PyValue>): (m: seq<string>)
    ensures forall f :: f in m <==> f in fields && !PyTruthy(DictGet(data, f))
    ensures ApiService.IsSubsequence(m, fields)
  {
    if fields == [] then []
    else
      var rest := MissingIn(fields[1..], data);
      if PyTruthy(DictGet(data, fields[0])) then rest
      else
        assert ([fields[0]] + rest)[1..] == rest;
        [fields[0]] + rest
  }

  /** Nothing is missing when every field is truthy. */
  lemma {:induction false} NoneMissing(fields: seq<string>, data: map<string, PyValue>)
    requires forall f :: f in fields ==> PyTruthy(DictGet(data, f))
    ensures MissingIn(fields, data) == []
  {
    if fields != [] {
      NoneMissing(fields[1..], data);
    }
  }

  /**
   * `predict_flight_price`: refuses when no model is loaded; otherwise the
   * price is the pipeline's answer, and a failure of the pipeline is a
   * prediction error carrying its reason.
   */
  function PredictFlightPrice(model: Option<ModelData>, features: Features): (r: Result<real, Fault>)
    ensures model.None? ==> r == Err(ModelNotLoaded)
    ensures model.Some? ==> (r.Ok? <==> model.value.infer(features).Ok?)
    ensures model.Some? && r.Ok? ==> r.value == model.value.infer(features).value
    ensures model.Some? && r.Err? ==> r.error == PredictionError(model.value.infer(features).error)
  {
    match model
    case None => Err(ModelNotLoaded)
    case Some(md) =>
      match md.infer(features)
      case Ok(price) => Ok(price)
      case Err(reason) => Err(PredictionError(reason))
  }

  /** What `predict` computes before it builds the reply. */
  datatype Outcome = Priced(features: Features, price: real) | Refused(fault: Fault)

  /**
   * `predict` up to `jsonify`: the missing-field check, then the float and
   * int conversions (with their defaults for absent keys), then the model.
   */
  function Predict(py: PyEnv, data: PyValue, model: Option<ModelData>): (r: Outcome)
    ensures !data.PyDict? ==> r == Refused(NotADict)
    ensures data.PyDict? && MissingIn(RequiredFields, data.entries) != [] ==>
      r == Refused(MissingFields(MissingIn(RequiredFields, data.entries)))
    ensures r.Priced? ==>
      && data.PyDict?
      && (forall f :: f in RequiredFields ==> PyTruthy(DictGet(data.entries, f)))
      && (forall f :: f in r.features.fields <==> f in RequiredFields)
      && (forall f :: f in RequiredFields ==> r.features.fields[f] == DictGet(data.entries, f))
      && (Duration !in data.entries ==> r.features.duration == DurationDefault)
      && (DaysLeft !in data.entries ==> r.features.daysLeft == DaysLeftDefault)
      && model.Some? && model.value.infer(r.features) == Ok(r.price)
      && (Duration in data.entries ==>
            ToFloat(py, data.entries[Duration]).Some? && r.features.duration == ToFloat(py, data.entries[Duration]).value)
      && (DaysLeft in data.entries ==>
            ToInt(py, data.entries[DaysLeft]).Some? && r.features.daysLeft == ToInt(py, data.entries[DaysLeft]).value)
    ensures (data.PyDict? && MissingIn(RequiredFields, data.entries) == []
             && Duration in data.entries && ToFloat(py, data.entries[Duration]).None?) ==>
      r == Refused(BadNumber(Duration, data.entries[Duration]))
    ensures (data.PyDict? && MissingIn(RequiredFields, data.entries) == []
             && (Duration in data.entries ==> ToFloat(py, data.entries[Duration]).Some?)
             && DaysLeft in data.entries && ToInt(py, data.entries[DaysLeft]).None?) ==>
      r == Refused(BadNumber(DaysLeft, data.entries[DaysLeft]))
  {
    if !data.PyDict? then Refused(NotADict)
    else
      var m := data.entries;
      var missing := MissingIn(RequiredFields, m);
      if missing != [] then Refused(MissingFields(missing))
      else
        var duration := if Duration in m then ToFloat(py, m[Duration]) else Some(DurationDefault);
        var daysLeft := if DaysLeft in m then ToInt(py, m[DaysLeft]) else Some(DaysLeftDefault);
        if duration.None? then Refused(BadNumber(Duration, m[Duration]))
        else if daysLeft.None? then Refused(BadNumber(DaysLeft, m[DaysLeft]))
        else
          var features := Features(map f | f in RequiredFields :: DictGet(m, f), duration.value, daysLeft.value);
          match PredictFlightPrice(model, features)
          case Ok(price) => Priced(features, price)
          case Err(fault) => Refused(fault)
  }

  /**
   * A dict with every required field truthy and both numbers convertible
   * gets past every check of `predict`: what remains is the model's answer
   * for the required fields and the two converted numbers.
   */
  lemma WellFormedBodyReachesModel(py: PyEnv, m: map<string, PyValue>, model: Option<ModelData>)
    requires forall f :: f in RequiredFields ==> PyTruthy(DictGet(m, f))
    requires Duration in m ==> ToFloat(py, m[Duration]).Some?
    requires DaysLeft in m ==> ToInt(py, m[DaysLeft]).Some?
    ensures var o := Predict(py, PyDict(m), model);
      && (o.Refused? ==> o.fault == ModelNotLoaded || o.fault.PredictionError?)
      && (model.None? ==> o == Refused(ModelNotLoaded))
    ensures var o := Predict(py, PyDict(m), model);
      var x := Features(map f | f in RequiredFields :: DictGet(m, f),
        if Duration in m then ToFloat(py, m[Duration]).value else DurationDefault,
        if DaysLeft in m then ToInt(py, m[DaysLeft]).value else DaysLeftDefault);
      && (model.Some? && model.value.infer(x).Ok? ==> o == Priced(x, model.value.infer(x).value))
      && (model.Some? && model.value.infer(x).Err? ==> o == Refused(PredictionError(model.value.infer(x).error)))
  {
    NoneMissing(RequiredFields, m);
  }

  const Rupee := "\U{20B9}"

  /** A reply: the HTTP status and the JSON object (without its timestamp). */
  datatype HttpReply = HttpReply(status: int, body: map<string, PyValue>)

  function FaultText(py: PyEnv, fault: Fault): string {
    match fault
    case MissingFields(fields) => "Missing fields: " + ApiService.Join(fields, ", ")
    case ModelNotLoaded => "Model not loaded"
    case PredictionError(reason) => "Prediction error: " + reason
    case _ => py.raisedText(fault)
  }

  /** The reply `predict` sends: 200 with the price, or 400 with the error. */
  function Respond(py: PyEnv, outcome: Outcome): (reply: HttpReply)
    ensures reply.status == 200 <==> outcome.Priced?
    ensures outcome.Refused? ==> reply == HttpReply(400,
      map["success" := PyBool(false), "error" := PyStr(FaultText(py, outcome.fault))])
    ensures outcome.Priced? ==>
      && "success" in reply.body && reply.body["success"] == PyBool(true)
      && "predicted_price" in reply.body && reply.body["predicted_price"] == PyFloat(py.round2(outcome.price))
      && "formatted_price" in reply.body && reply.body["formatted_price"] == PyStr(Rupee + py.thousands(outcome.price))
      && NumpyFree(PyDict(reply.body))
  {
    match outcome
    case Refused(fault) =>
      HttpReply(400, map["success" := PyBool(false), "error" := PyStr(FaultText(py, fault))])
    case Priced(_, price) =>
      var result := map[
        "success" := PyBool(true),
        "predicted_price" := PyFloat(py.round2(price)),
        "formatted_price" := PyStr(Rupee + py.thousands(price))];
      HttpReply(200, Convert(PyDict(result)).entries)
  }

  /**
   * The full `/predict` handler: a 200 reply carries the model's price for
   * the request's features, and without a model every request is a 400.
   */
  function PredictEndpoint(py: PyEnv, data: PyValue, model: Option<ModelData>): (reply: HttpReply)
    ensures reply.status == 200 || reply.status == 400
    ensures model.None? ==> reply.status == 400 && "error" in reply.body
    ensures reply.status == 200 ==>
      var o := Predict(py, data, model);
      && model.Some? && data.PyDict? && o.Priced?
      && "predicted_price" in reply.body
      && reply.body["predicted_price"] == PyFloat(py.round2(model.value.infer(o.features).value))
    ensures reply.status == 400 ==>
      var o := Predict(py, data, model);
      o.Refused? && "error" in reply.body && reply.body["error"] == PyStr(FaultText(py, o.fault))
  {
    var o := Predict(py, data, model);
    assert o.Priced? ==> model.value.infer(o.features) == Ok(o.price);
    Respond(py, o)
  }

  /** Without a model, a body that passes every check is still answered 400 "Model not loaded". */
  lemma NoModelNoPrice(py: PyEnv, data: PyValue)
    ensures Predict(py, data, None).Refused?
    ensures var o := Predict(py, data, None);
      o.fault == ModelNotLoaded <==>
        data.PyDict? && MissingIn(RequiredFields, data.entries) == []
        && (Duration in data.entries ==> ToFloat(py, data.entries[Duration]).Some?)
        && (DaysLeft in data.entries ==> ToInt(py, data.entries[DaysLeft]).Some?)
  {
  }

  /** A duration sent as 0, with days_left absent: priced with duration 0 and the default days_left. */
  lemma ZeroDurationKept(py: PyEnv, m: map<string, PyValue>, md: ModelData, price: real)
    requires forall f :: f in RequiredFields ==> PyTruthy(DictGet(m, f))
    requires Duration in m && m[Duration] == PyInt(0) && DaysLeft !in m
    requires forall x :: md.infer(x) == Ok(price)
    ensures var o := Predict(py, PyDict(m), Some(md));
      o.Priced? && o.features.duration == 0.0 && o.features.daysLeft == DaysLeftDefault
  {
    NoneMissing(RequiredFields, m);
  }

  /** A duration sent as "" is refused wherever `float("")` raises. */
  lemma EmptyDurationRefused(py: PyEnv, m: map<string, PyValue>, model: Option<ModelData>)
    requires forall f :: f in RequiredFields ==> PyTruthy(DictGet(m, f))
    requires Duration in m && m[Duration] == PyStr("") && py.parseFloat("").None?
    ensures Predict(py, PyDict(m), model) == Refused(BadNumber(Duration, PyStr("")))
  {
    NoneMissing(RequiredFields, m);
  }

  /** Setting a key that is not required leaves the required fields as they were. */
  lemma SameRequiredFields(m: map<string, PyValue>, k: string, v: PyValue)
    requires k !in RequiredFields
    requires forall f :: f in RequiredFields ==> PyTruthy(DictGet(m, f))
    ensures forall f :: f in RequiredFields ==> PyTruthy(DictGet(m[k := v], f))
  {
  }

  /**
   * The defaults apply only to absent keys: a duration sent as 0 stays 0
   * (the client would have put 2.5 in its place), and an empty string is a
   * 400 wherever `float("")` raises.
   */
  lemma DefaultsOnlyForAbsentKeys(py: PyEnv, m: map<string, PyValue>, md: ModelData, price: real)
    requires forall f :: f in RequiredFields ==> PyTruthy(DictGet(m, f))
    requires DaysLeft !in m
    requires forall x :: md.infer(x) == Ok(price)
    ensures Predict(py, PyDict(m[Duration := PyInt(0)]), Some(md)).Priced?
    ensures Predict(py, PyDict(m[Duration := PyInt(0)]), Some(md)).features.duration == 0.0
    ensures Predict(py, PyDict(m[Duration := PyInt(0)]), Some(md)).features.daysLeft == DaysLeftDefault
    ensures py.parseFloat("").None? ==>
      Predict(py, PyDict(m[Duration := PyStr("")]), Some(md)) == Refused(BadNumber(Duration, PyStr("")))
  {
    SameRequiredFields(m, Duration, PyInt(0));
    SameRequiredFields(m, Duration, PyStr(""));
    ZeroDurationKept(py, m[Duration := PyInt(0)], md, price);
    if py.parseFloat("").None? {
      EmptyDurationRefused(py, m[Duration := PyStr("")], Some(md));
    }
  }

  // ---------------------------------------------------------------------
  // /health and /model-info
  // ---------------------------------------------------------------------

  /** The paths the service routes. */
  const Routes: set<string> := {"/", "/api/options", "/predict", "/api/predict", "/health", "/model-info"}

  const HealthMessage := "Flight Price Predictor API is running"

  /** `health_check` (without its timestamp). */
  function HealthCheck(model: Option<ModelData>): (reply: HttpReply)
    ensures reply.status == 200 && "status" in reply.body && reply.body["status"] == PyStr("healthy")
    ensures "model_status" in reply.body && (reply.body["model_status"] == PyStr("loaded") <==> model.Some?)
  {
    HttpReply(200, map[
      "status" := PyStr("healthy"),
      "model_status" := PyStr(if model.Some? then "loaded" else "not loaded"),
      "message" := PyStr(HealthMessage)])
  }

  /** `model_info` (without its timestamp); `str` stands for Python's `str()`. */
  function ModelInfo(model: Option<ModelData>, str: PyValue -> string): (reply: HttpReply)
    ensures reply.status == 404 <==> model.None?
    ensures model.None? ==> reply.body == map["success" := PyBool(false), "error" := PyStr("Model not loaded")]
    ensures model.Some? ==>
      && reply.status == 200
      && "success" in reply.body && reply.body["success"] == PyBool(true)
      && "model_loaded" in reply.body && reply.body["model_loaded"] == PyBool(true)
      && "performance" in reply.body && NumpyFree(reply.body["performance"])
      && "best_params" in reply.body && NumpyFree(reply.body["best_params"])
  {
    match model
    case None => HttpReply(404, map["success" := PyBool(false), "error" := PyStr("Model not loaded")])
    case Some(md) =>
      var m := md.entries;
      HttpReply(200, map[
        "success" := PyBool(true),
        "model_loaded" := PyBool(true),
        "transform_type" := PyStr(str(if "transform_type" in m then m["transform_type"] else PyStr(""))),
        "best_params" := Convert(if "best_params" in m then m["best_params"] else PyDict(map[])),
        "performance" := Convert(if "performance" in m then m["performance"] else PyDict(map[]))])
  }
}

=== FILE: constants.dfy ===
/**
 * The shared constant tables of the client (frontend/src/utils/constants.js)
 * that the validators, the form and the prediction hook read.
 */
module Constants {
  import opened JsSemantics

  // Field names of a flight query.
  const Airline := "airline"
  const SourceCity := "source_city"
  const DestinationCity := "destination_city"
  const DepartureTime := "departure_time"
  const ArrivalTime := "arrival_time"
  const Stops := "stops"
  const Class := "class"
  const Duration := "duration"
  const DaysLeft := "days_left"

  /** The seven fields every validator treats as mandatory, in checking order. */
  const RequiredFields: seq<string> :=
    [Airline, SourceCity, DestinationCity, DepartureTime, ArrivalTime, Stops, Class]

  /** The nine fields of the form, in declaration order. */
  const FormFields: seq<string> := RequiredFields + [Duration, DaysLeft]

  /** FIELD_LABELS */
  const FieldLabels: map<string, string> := map[
    Airline := "Airline",
    SourceCity := "Source City",
    DestinationCity := "Destination City",
    DepartureTime := "Departure Time",
    ArrivalTime := "Arrival Time",
    Stops := "Stops",
    Class := "Class",
    Duration := "Duration (hours)",
    DaysLeft := "Days Left"]

  /** DEFAULT_FORM_VALUES */
  const DefaultFormValues: Record := map[
    Airline := Str(""),
    SourceCity := Str(""),
    DestinationCity := Str(""),
    DepartureTime := Str(""),
    ArrivalTime := Str(""),
    Stops := Str(""),
    Class := Str(""),
    Duration := Num(2.5),
    DaysLeft := Num(15.0)]

  /** VALIDATION_RULES */
  const DurationMin: real := 0.5
  const DurationMax: real := 24.0
  const DurationStep: real := 0.1
  const DaysLeftMin: int := 1
  const DaysLeftMax: int := 365
  const DaysLeftStep: int := 1

  /** FORM_OPTIONS */
  const Airlines: seq<string> :=
    ["IndiGo", "Air India", "Jet Airways", "SpiceJet", "Multiple carriers", "GoAir", "Vistara"]
  const Cities: seq<string> :=
    ["Delhi", "Mumbai", "Bangalore", "Kolkata", "Chennai", "Hyderabad"]
  const DepartureTimes: seq<string> :=
    ["Early Morning", "Morning", "Afternoon", "Evening", "Night", "Late Night"]
  const ArrivalTimes: seq<string> :=
    ["Early Morning", "Morning", "Afternoon", "Evening", "Night", "Late Night"]
  const StopOptions: seq<string> :=
    ["Non-stop", "1 stop", "2 stops", "3 stops", "4 stops"]
  const Classes: seq<string> := ["Economy", "Business"]

  /** ERROR_MESSAGES of constants.js (the prediction hook's table). */
  const NetworkErrorMessage := "Network error. Please check your internet connection."
  const ServerErrorMessage := "Server error. Please try again later."
  const ValidationErrorMessage := "Please fill in all required fields correctly."
  const PredictionFailedMessage := "Failed to get price prediction. Please try again."
  const ModelNotLoadedMessage := "Prediction model is not loaded. Please contact support."
  const TimeoutErrorMessage := "Request timed out. Please try again."
  const UnknownErrorMessage := "An unexpected error occurred. Please try again."

  /** The two numeric fields are not among the required ones; both cities are. */
  lemma NumericFieldsNotRequired()
    ensures Duration !in RequiredFields && DaysLeft !in RequiredFields
    ensures SourceCity in RequiredFields && DestinationCity in RequiredFields
  {
  }

  /** Each validation range is a proper interval. */
  lemma ValidationRulesWellFormed()
    ensures DurationMin < DurationMax && 0.0 < DurationStep
    ensures DaysLeftMin < DaysLeftMax && 0 < DaysLeftStep
  {
  }

  /** The numeric defaults lie inside their validation ranges. */
  lemma DefaultsWithinRules()
    ensures DefaultFormValues[Duration] == Num(2.5) && DurationMin <= 2.5 <= DurationMax
    ensures DefaultFormValues[DaysLeft] == Num(15.0) && DaysLeftMin <= 15 <= DaysLeftMax
  {
  }

  /** The form has exactly the nine fields, and every required one starts empty. */
  lemma DefaultsLeaveRequiredEmpty()
    ensures DefaultFormValues.Keys == set f | f in FormFields
    ensures forall f :: f in RequiredFields ==> f in DefaultFormValues && !Truthy(DefaultFormValues[f])
  {
  }

  /** Every form field, in particular every required one, has a label. */
  lemma LabelsCoverFormFields()
    ensures FieldLabels.Keys == set f | f in FormFields
    ensures forall f :: f in RequiredFields ==> f in FieldLabels
  {
  }

  /** Departure and arrival offer the same slots; the cities are distinct. */
  lemma FormOptionsShape()
    ensures DepartureTimes == ArrivalTimes && |DepartureTimes| == 6
    ensures |Cities| == 6 && forall i, j :: 0 <= i < j < |Cities| ==> Cities[i] != Cities[j]
    ensures forall i, j :: 0 <= i < j < |RequiredFields| ==> RequiredFields[i] != RequiredFields[j]
  {
  }
}

=== FILE: end_to_end.dfy ===
/**
 * How the pieces meet: the form's validator against the pre-send
 * validator, the formatted payload as the service reads it after the JSON
 * round trip, and the health reply as the client reads it.
 */
module EndToEnd {
  import opened Wrappers
  import opened JsSemantics
  import opened Constants
  import ApiService
  import PredictionForm
  import PredictionResult
  import PredictionHooks
  import Backend

  // ---------------------------------------------------------------------
  // The two client validators
  // ---------------------------------------------------------------------

  /**
   * Where the form's parser (`parseFloat` for duration, `parseInt` for
   * days_left) reads a numeric text as in range, `Number()` reads it as a
   * number the pre-send validator accepts. This holds for plain decimal
   * text such as "2.5" or "1.5"; it fails for text with a trailing
   * non-numeric part such as "3 days", which only the parsers accept.
   */
  predicate ParsersAgree(js: JsEnv, data: Record) {
    && (Get(data, Duration).Str? ==>
          var s := Get(data, Duration).s;
          js.parseFloat(s).Some? && DurationMin <= js.parseFloat(s).value <= DurationMax ==>
            js.number(s).Some? && js.number(s).value > 0.0)
    && (Get(data, DaysLeft).Str? ==>
          var s := Get(data, DaysLeft).s;
          js.parseInt(s).Some? && DaysLeftMin <= js.parseInt(s).value <= DaysLeftMax ==>
            js.number(s).Some? && js.number(s).value >= 1.0)
  }

  /** Whatever the form lets through, the pre-send validator accepts. */
  lemma FormValidImpliesApiValid(js: JsEnv, data: Record)
    requires PredictionForm.FormErrors(js, data) == map[]
    requires ParsersAgree(js, data)
    ensures ApiService.ValidateFlightData(js, data) == Ok(true)
  {
    PredictionForm.FormValidIff(js, data);
    var d := Get(data, DaysLeft);
    if d.Num? && Truthy(d) {
      assert Trunc(d.n) >= 1;
    }
  }

  /**
   * The pre-send validator is laxer than the form: equal cities and a
   * 30-hour flight pass it, while the form blames exactly the destination
   * and the duration.
   */
  lemma ApiValidatorIsLaxer(js: JsEnv, data: Record)
    requires forall f :: f in RequiredFields ==> Get(data, f).Str? && Truthy(Get(data, f))
    requires Get(data, SourceCity) == Get(data, DestinationCity)
    requires Get(data, Duration) == Num(30.0) && Get(data, DaysLeft) == Num(15.0)
    ensures ApiService.ValidateFlightData(js, data) == Ok(true)
    ensures forall f :: f in PredictionForm.FormErrors(js, data) <==> f == DestinationCity || f == Duration
  {
    PredictionForm.FormErrorsExactly(js, data);
    TruncOfInteger(15);
    assert PredictionForm.SameCity(data);
  }

  /** With equal cities the form never calls `onSubmit`, so nothing reaches the network layer. */
  lemma SameCitiesNeverSubmitted(js: JsEnv, data: Record)
    requires PredictionForm.SameCity(data)
    ensures PredictionForm.FormErrors(js, data) != map[]
  {
    PredictionForm.SameCityBlamesDestinationOnly(js, data);
  }

  // ---------------------------------------------------------------------
  // The JSON round trip between client and service
  // ---------------------------------------------------------------------

  /**
   * What `JSON.stringify` then Python's `json.loads` make of a client
   * value: undefined members vanish, whole numbers arrive as `int`, other
   * numbers as `float`.
   */
  function ToWire(v: Value): Option<Backend.PyValue> {
    match v
    case Undefined => None
    case Null => Some(Backend.PyNone)
    case Bool(b) => Some(Backend.PyBool(b))
    case Num(n) => Some(if n.Floor as real == n then Backend.PyInt(n.Floor) else Backend.PyFloat(n))
    case Str(s) => Some(Backend.PyStr(s))
    case Obj(m) => Some(Backend.PyDict(map k | k in m && ToWire(m[k]).Some? :: ToWire(m[k]).value))
  }

  function WireRecord(r: Record): map<string, Backend.PyValue> {
    map k | k in r && ToWire(r[k]).Some? :: ToWire(r[k]).value
  }

  /** A scalar keeps its truthiness across the wire; an object does not when it is empty. */
  lemma WireKeepsTruthiness(v: Value)
    requires !v.Obj?
    ensures Truthy(v) <==> ToWire(v).Some? && Backend.PyTruthy(ToWire(v).value)
  {
  }

  /** A formatted number arrives as a number the service converts back to itself. */
  lemma NumbersCrossTheWire(py: Backend.PyEnv, x: real)
    ensures ToWire(Num(x)).Some? && Backend.ToFloat(py, ToWire(Num(x)).value) == Some(x)
    ensures x.Floor as real == x ==> Backend.ToInt(py, ToWire(Num(x)).value) == Some(x.Floor)
  {
  }

  /**
   * A payload the pre-send validator accepted and `formatFlightData`
   * produced passes the service's missing-field check and both numeric
   * conversions: the model sees the client's duration and days_left, and
   * the only refusals left are the model's.
   */
  lemma FormattedPayloadAccepted(js: JsEnv, py: Backend.PyEnv, data: Record, model: Option<Backend.ModelData>)
    requires ApiService.ValidateFlightData(js, data).Ok?
    requires forall f :: f in RequiredFields ==> !Get(data, f).Obj?
    ensures var payload := ApiService.FormatFlightData(js, data);
      var o := Backend.Predict(py, Backend.PyDict(WireRecord(payload)), model);
      && (o.Refused? ==> o.fault == Backend.ModelNotLoaded || o.fault.PredictionError?)
      && (model.None? ==> o == Backend.Refused(Backend.ModelNotLoaded))
      && (o.Priced? ==> Num(o.features.duration) == payload[Duration]
                        && Num(o.features.daysLeft as real) == payload[DaysLeft])
  {
    var payload := ApiService.FormatFlightData(js, data);
    var wire := WireRecord(payload);
    forall f | f in RequiredFields ensures Backend.PyTruthy(Backend.DictGet(wire, f)) {
      WireKeepsTruthiness(Get(data, f));
    }
    var d, k := payload[Duration].n, payload[DaysLeft].n;
    NumbersCrossTheWire(py, d);
    NumbersCrossTheWire(py, k);
    assert k.Floor as real == k;
    assert wire[Duration] == ToWire(Num(d)).value && wire[DaysLeft] == ToWire(Num(k)).value;
    Backend.WellFormedBodyReachesModel(py, wire, model);
  }

  // ---------------------------------------------------------------------
  // The health reply
  // ---------------------------------------------------------------------

  /** What `json.dumps` then `JSON.parse` make of a service string map. */
  function StringsFromWire(body: map<string, Backend.PyValue>): Record {
    map k | k in body && body[k].PyStr? :: Str(body[k].s)
  }

  /**
   * The client's prediction and options paths are service routes, but its
   * health and model-info paths are not: the service routes `/health` and
   * `/model-info` without the `/api` prefix. Those two requests reach their
   * handlers only through a proxy that strips the prefix; otherwise they
   * are answered 404.
   */
  lemma ClientPathsAgainstRoutes()
    ensures ApiService.PredictPath in Backend.Routes && ApiService.OptionsPath in Backend.Routes
    ensures ApiService.HealthPath !in Backend.Routes && ApiService.ModelInfoPath !in Backend.Routes
  {
  }

  /**
   * The client reads every health reply that reaches it as healthy, loaded
   * model or not (for the path question, see `ClientPathsAgainstRoutes`).
   */
  lemma HealthReplyReadsHealthy(model: Option<Backend.ModelData>)
    ensures PredictionHooks.HealthyFrom(ApiService.Resolved(Obj(StringsFromWire(Backend.HealthCheck(model).body))))
  {
  }

  // ---------------------------------------------------------------------
  // A whole prediction
  // ---------------------------------------------------------------------

  /** A Delhi to Mumbai IndiGo query, as the form holds it. */
  ghost predicate IsIndiGoQuery(data: Record) {
    && (forall f :: f in data <==> f in FormFields)
    && Get(data, Airline) == Str("IndiGo") && Get(data, SourceCity) == Str("Delhi")
    && Get(data, DestinationCity) == Str("Mumbai") && Get(data, DepartureTime) == Str("Morning")
    && Get(data, ArrivalTime) == Str("Evening") && Get(data, Stops) == Str("Non-stop")
    && Get(data, Class) == Str("Economy") && Get(data, Duration) == Num(2.5) && Get(data, DaysLeft) == Num(15.0)
  }

  /** Every required field of the query is a non-empty text. */
  lemma IndiGoQueryComplete(data: Record)
    requires IsIndiGoQuery(data)
    ensures forall f :: f in RequiredFields ==> Truthy(Get(data, f))
  {
  }

  /** The query passes the form's validator. */
  lemma IndiGoQueryPassesForm(js: JsEnv, data: Record)
    requires IsIndiGoQuery(data)
    ensures PredictionForm.FormErrors(js, data) == map[]
  {
    IndiGoQueryComplete(data);
    TruncOfInteger(15);
    assert !PredictionForm.SameCity(data);
    assert !PredictionForm.DurationOutOfRange(js, Num(2.5)) && !PredictionForm.DaysLeftOutOfRange(js, Num(15.0));
    PredictionForm.FormValidIff(js, data);
  }

  /** The query passes the pre-send validator. */
  lemma IndiGoQueryPassesApi(js: JsEnv, data: Record)
    requires IsIndiGoQuery(data)
    ensures ApiService.ValidateFlightData(js, data) == Ok(true)
  {
    IndiGoQueryComplete(data);
    assert !ApiService.DurationRejected(js, Num(2.5)) && !ApiService.DaysLeftRejected(js, Num(15.0));
  }

  /** The query is sent exactly as the form holds it. */
  lemma IndiGoQuerySentUnchanged(js: JsEnv, data: Record)
    requires IsIndiGoQuery(data)
    ensures ApiService.FormatFlightData(js, data) == data
  {
    TruncOfInteger(15);
    var formatted := ApiService.FormatFlightData(js, data);
    assert forall f :: f in formatted <==> f in data;
  }

  /** A reply of 5823 is shown as the rupee sign and the locale's rendering of 5823, in the Medium band. */
  lemma PriceReplyShown(js: JsEnv)
    ensures var view := PredictionResult.Render(js, Obj(map["predicted_price" := Num(5823.0)]));
      && view.Some?
      && view.value.formattedPrice == Str(PredictionResult.Rupee + js.toLocaleString(Num(5823.0)))
      && view.value.level == PredictionResult.Medium
  {
    var reply := Obj(map["predicted_price" := Num(5823.0)]);
    PredictionResult.PredictedPriceFallback(reply);
    assert PredictionResult.PredictedPrice(reply) == Num(5823.0);
    var chain := [Field(reply, "formatted_price"), Str(PredictionResult.Rupee + js.toLocaleString(Num(5823.0)))];
    assert !Truthy(chain[0]);
    OrChainSelects(chain, 1);
    assert PredictionResult.FormattedPrice(js, reply) == OrChain(chain);
  }
}

=== FILE: js_semantics.dfy ===
/**
 * The few pieces of JavaScript semantics the client code relies on:
 * dynamically typed values, truthiness, `||` chains, strict equality and
 * the numeric conversions `Number(v)`, `parseFloat(v)`, `parseInt(v)`.
 *
 * A number value is never NaN or infinite here; a conversion that yields NaN
 * is `None`. How a *string* converts to a number (and how a number prints)
 * is not modelled: it is supplied by a `JsEnv`, and every property proved
 * in this project holds for every choice of those functions unless a lemma
 * states a hypothesis about them.
 */
module JsSemantics {
  import opened Wrappers

  datatype Value =
    | Undefined
    | Null
    | Bool(b: bool)
    | Num(n: real)
    | Str(s: string)
    | Obj(fields: map<string, Value>)

  /** A plain JavaScript object such as `formData` or a request payload. */
  type Record = map<string, Value>

  /** The string-level conversions the engine performs. */
  datatype JsEnv = JsEnv(
    number: string -> Option<real>,       // Number(s)
    parseFloat: string -> Option<real>,   // parseFloat(s)
    parseInt: string -> Option<int>,      // parseInt(s)
    numberToString: real -> string,       // String(n)
    toLocaleString: Value -> string,      // v.toLocaleString()
    readOfNullish: (Value, string) -> string)  // message of the TypeError thrown by `v.k` for v null or undefined

  /** `r[k]`: a missing key reads as undefined. */
  function Get(r: Record, k: string): Value {
    if k in r then r[k] else Undefined
  }

  /** `v == null`: reading any property of v throws a TypeError. */
  predicate Nullish(v: Value) {
    v.Undefined? || v.Null?
  }

  /**
   * `v.k` on a value that is not nullish: only objects have the fields used
   * here. Callers that may meet null or undefined test `Nullish` first.
   */
  function Field(v: Value, k: string): Value {
    if v.Obj? then Get(v.fields, k) else Undefined
  }

  /** JavaScript truthiness: undefined, null, false, 0 and "" are falsy. */
  predicate Truthy(v: Value) {
    match v
    case Undefined => false
    case Null => false
    case Bool(b) => b
    case Num(n) => n != 0.0
    case Str(s) => s != ""
    case Obj(_) => true
  }

  /** `a === b`. Two object values are distinct references. */
  predicate StrictEquals(a: Value, b: Value) {
    !a.Obj? && a == b
  }

  /** Operand i is the one an `||` chain over vs evaluates to. */
  ghost predicate SelectedBy(vs: seq<Value>, i: int)
    requires 0 <= i < |vs|
  {
    (forall j :: 0 <= j < i ==> !Truthy(vs[j])) && (Truthy(vs[i]) || i == |vs| - 1)
  }

  /**
   * `vs[0] || vs[1] || ... || vs[n-1]`: the first truthy operand, or the
   * last operand when none is truthy.
   */
  function OrChain(vs: seq<Value>): (r: Value)
    requires |vs| > 0
    ensures exists i :: 0 <= i < |vs| && r == vs[i] && SelectedBy(vs, i)
    ensures Truthy(r) <==> exists i :: 0 <= i < |vs| && Truthy(vs[i])
  {
    if |vs| == 1 || Truthy(vs[0]) then
      assert SelectedBy(vs, 0);
      vs[0]
    else
      var r := OrChain(vs[1..]);
      ghost var i :| 0 <= i < |vs[1..]| && r == vs[1..][i] && SelectedBy(vs[1..], i);
      assert r == vs[i + 1];
      assert forall j :: 0 <= j < i + 1 ==> !Truthy(vs[j]) by {
        forall j | 0 <= j < i + 1 ensures !Truthy(vs[j]) {
          if j > 0 { assert vs[j] == vs[1..][j - 1]; }
        }
      }
      assert (exists k :: 0 <= k < |vs| && Truthy(vs[k])) ==> exists k :: 0 <= k < |vs[1..]| && Truthy(vs[1..][k]) by {
        if k :| 0 <= k < |vs| && Truthy(vs[k]) {
          assert k > 0 && vs[1..][k - 1] == vs[k];
        }
      }
      r
  }

  /** The operand an `||` chain selects is unique: the first truthy one, else the last. */
  lemma {:induction false} OrChainSelects(vs: seq<Value>, k: int)
    requires 0 <= k < |vs| && SelectedBy(vs, k)
    ensures OrChain(vs) == vs[k]
  {
    if |vs| > 1 && !Truthy(vs[0]) {
      forall j | 0 <= j < k - 1 ensures !Truthy(vs[1..][j]) {
        assert vs[1..][j] == vs[j + 1];
      }
      OrChainSelects(vs[1..], k - 1);
    }
  }

  /** Truncation toward zero, as `parseInt(String(x))` does for ordinary numbers. */
  function Trunc(x: real): (k: int)
    ensures 0.0 <= x ==> k as real <= x < k as real + 1.0
    ensures x < 0.0 ==> k as real - 1.0 < x <= k as real
  {
    if x >= 0.0 then x.Floor else -((-x).Floor)
  }

  /** `Number(v)`: None is NaN. */
  function ToNumber(js: JsEnv, v: Value): Option<real> {
    match v
    case Undefined => None
    case Null => Some(0.0)
    case Bool(b) => Some(if b then 1.0 else 0.0)
    case Num(n) => Some(n)
    case Str(s) => js.number(s)
    case Obj(_) => None
  }

  /** `parseFloat(v)`: the argument is first turned into a string. */
  function ParseFloat(js: JsEnv, v: Value): Option<real> {
    match v
    case Num(n) => Some(n)
    case Str(s) => js.parseFloat(s)
    case _ => None
  }

  /** `parseInt(v)`: the argument is first turned into a string. */
  function ParseInt(js: JsEnv, v: Value): Option<int> {
    match v
    case Num(n) => Some(Trunc(n))
    case Str(s) => js.parseInt(s)
    case _ => None
  }

  /** `String(v)`, as used by template literals and `new Error(v)`. */
  function ToString(js: JsEnv, v: Value): string {
    match v
    case Undefined => "undefined"
    case Null => "null"
    case Bool(b) => if b then "true" else "false"
    case Num(n) => js.numberToString(n)
    case Str(s) => s
    case Obj(_) => "[object Object]"
  }

  /** A parsed integer read back as a number keeps its value. */
  lemma TruncOfInteger(k: int)
    ensures Trunc(k as real) == k
  {
  }
}

=== FILE: prediction_form.dfy ===
/**
 * The prediction form component
 * (frontend/src/components/predictor/PredictionForm.jsx): its state
 * (`formData`, `errors`, `touched`), the form validator and the change,
 * submit and reset handlers.
 */
module PredictionForm {
  import opened Wrappers
  import opened JsSemantics
  import opened Constants

  const SameCityText := "Destination must be different from source"
  // The two range messages interpolate VALIDATION_RULES' bounds.
  const DurationRangeText := "Duration must be between 0.5 and 24 hours"
  const DaysLeftRangeText := "Days left must be between 1 and 365"

  /** `FIELD_LABELS[f]` inside a template literal. */
  function Label(f: string): string {
    if f in FieldLabels then FieldLabels[f] else "undefined"
  }

  function RequiredText(f: string): string {
    Label(f) + " is required"
  }

  /** The errors the `forEach` over `fields` has recorded once it has visited them all. */
  function RequiredErrors(fields: seq<string>, data: Record): map<string, string> {
    if fields == [] then map[]
    else
      var prev := RequiredErrors(fields[..|fields| - 1], data);
      var f := fields[|fields| - 1];
      if !Truthy(Get(data, f)) then prev[f := RequiredText(f)] else prev
  }

  /** The required-field pass records "<label> is required" for exactly the falsy fields. */
  lemma {:induction false} RequiredErrorsExactly(fields: seq<string>, data: Record)
    ensures forall f :: f in RequiredErrors(fields, data) <==> f in fields && !Truthy(Get(data, f))
    ensures forall f :: f in RequiredErrors(fields, data) ==> RequiredErrors(fields, data)[f] == RequiredText(f)
  {
    if fields != [] {
      var init := fields[..|fields| - 1];
      RequiredErrorsExactly(init, data);
      assert fields == init + [fields[|fields| - 1]];
    }
  }

  /** Both cities given and equal (`===`). */
  predicate SameCity(data: Record) {
    var src, dst := Get(data, SourceCity), Get(data, DestinationCity);
    Truthy(src) && Truthy(dst) && StrictEquals(src, dst)
  }

  /** A truthy duration whose `parseFloat` is NaN or outside [0.5, 24]. */
  predicate DurationOutOfRange(js: JsEnv, v: Value) {
    Truthy(v) &&
    var d := ParseFloat(js, v);
    d.None? || d.value < DurationMin || d.value > DurationMax
  }

  /** A truthy days_left whose `parseInt` is NaN or outside [1, 365]. */
  predicate DaysLeftOutOfRange(js: JsEnv, v: Value) {
    Truthy(v) &&
    var k := ParseInt(js, v);
    k.None? || k.value < DaysLeftMin || k.value > DaysLeftMax
  }

  /** The map `validateForm` builds for the given form data. */
  function FormErrors(js: JsEnv, data: Record): map<string, string> {
    var e1 := RequiredErrors(RequiredFields, data);
    var e2 := if SameCity(data) then e1[DestinationCity := SameCityText] else e1;
    var e3 := if DurationOutOfRange(js, Get(data, Duration)) then e2[Duration := DurationRangeText] else e2;
    if DaysLeftOutOfRange(js, Get(data, DaysLeft)) then e3[DaysLeft := DaysLeftRangeText] else e3
  }

  /**
   * Which fields get an error, and which error: a missing required field
   * its "is required" text, equal cities the destination, an out-of-range
   * duration or days_left its range text.
   */
  lemma FormErrorsExactly(js: JsEnv, data: Record)
    ensures var e := FormErrors(js, data);
      forall f :: f in e <==>
        || (f in RequiredFields && !Truthy(Get(data, f)))
        || (f == DestinationCity && SameCity(data))
        || (f == Duration && DurationOutOfRange(js, Get(data, Duration)))
        || (f == DaysLeft && DaysLeftOutOfRange(js, Get(data, DaysLeft)))
    ensures var e := FormErrors(js, data);
      forall f :: f in e && f in RequiredFields && !(f == DestinationCity && SameCity(data)) ==>
        e[f] == RequiredText(f)
    ensures var e := FormErrors(js, data);
      && (SameCity(data) ==> e[DestinationCity] == SameCityText)
      && (Duration in e ==> e[Duration] == DurationRangeText)
      && (DaysLeft in e ==> e[DaysLeft] == DaysLeftRangeText)
  {
    RequiredErrorsExactly(RequiredFields, data);
    NumericFieldsNotRequired();
    var e1 := RequiredErrors(RequiredFields, data);
    var e2 := if SameCity(data) then e1[DestinationCity := SameCityText] else e1;
    var e3 := if DurationOutOfRange(js, Get(data, Duration)) then e2[Duration := DurationRangeText] else e2;
    assert FormErrors(js, data) == if DaysLeftOutOfRange(js, Get(data, DaysLeft)) then e3[DaysLeft := DaysLeftRangeText] else e3;
  }

  /** Equal cities are blamed on the destination only: the source gets no error for them. */
  lemma SameCityBlamesDestinationOnly(js: JsEnv, data: Record)
    requires SameCity(data)
    ensures FormErrors(js, data)[DestinationCity] == SameCityText
    ensures SourceCity !in FormErrors(js, data)
  {
    FormErrorsExactly(js, data);
  }

  /** The form is valid exactly when no rule fires. */
  lemma FormValidIff(js: JsEnv, data: Record)
    ensures FormErrors(js, data) == map[] <==>
      && (forall f :: f in RequiredFields ==> Truthy(Get(data, f)))
      && !SameCity(data)
      && !DurationOutOfRange(js, Get(data, Duration))
      && !DaysLeftOutOfRange(js, Get(data, DaysLeft))
  {
    FormErrorsExactly(js, data);
    var e := FormErrors(js, data);
    if e != map[] {
      var f :| f in e;
    }
  }

  /** A numeric duration is checked only when non-zero, against [0.5, 24] inclusive. */
  lemma DurationRule(js: JsEnv, x: real)
    ensures DurationOutOfRange(js, Num(x)) <==> x != 0.0 && (x < 0.5 || x > 24.0)
    ensures !DurationOutOfRange(js, Num(0.5)) && !DurationOutOfRange(js, Num(24.0))
    ensures DurationOutOfRange(js, Num(0.49)) && DurationOutOfRange(js, Num(24.01))
  {
  }

  /** A numeric days_left is truncated, then checked against [1, 365] inclusive. */
  lemma DaysLeftRule(js: JsEnv, k: int)
    ensures DaysLeftOutOfRange(js, Num(k as real)) <==> k != 0 && (k < 1 || k > 365)
  {
    TruncOfInteger(k);
  }

  /** A freshly reset form fails on exactly the seven required fields. */
  lemma DefaultFormFailsOnRequiredFields(js: JsEnv)
    ensures FormErrors(js, DefaultFormValues).Keys == set f | f in RequiredFields
  {
    FormErrorsExactly(js, DefaultFormValues);
    DefaultsLeaveRequiredEmpty();
    TruncOfInteger(15);
  }

  /** The `requiredFields.forEach` loop of `validateForm`. */
  method CollectRequired(fields: seq<string>, data: Record) returns (newErrors: map<string, string>)
    ensures newErrors == RequiredErrors(fields, data)
  {
    newErrors := map[];
    for i := 0 to |fields|
      invariant newErrors == RequiredErrors(fields[..i], data)
    {
      var field := fields[i];
      assert fields[..i + 1][..i] == fields[..i];
      if !Truthy(Get(data, field)) {
        newErrors := newErrors[field := RequiredText(field)];
      }
    }
    assert fields[..|fields|] == fields;
  }

  /** The `validateForm` body up to `setErrors`: the `forEach` loop, then the three rules. */
  method ComputeErrors(js: JsEnv, data: Record) returns (newErrors: map<string, string>)
    ensures newErrors == FormErrors(js, data)
  {
    newErrors := CollectRequired(RequiredFields, data);
    var src, dst := Get(data, SourceCity), Get(data, DestinationCity);
    if Truthy(src) && Truthy(dst) {
      if StrictEquals(src, dst) {
        newErrors := newErrors[DestinationCity := SameCityText];
      }
    }
    var duration := Get(data, Duration);
    if Truthy(duration) {
      var d := ParseFloat(js, duration);
      if d.None? || d.value < DurationMin || d.value > DurationMax {
        newErrors := newErrors[Duration := DurationRangeText];
      }
    }
    var daysLeft := Get(data, DaysLeft);
    if Truthy(daysLeft) {
      var k := ParseInt(js, daysLeft);
      if k.None? || k.value < DaysLeftMin || k.value > DaysLeftMax {
        newErrors := newErrors[DaysLeft := DaysLeftRangeText];
      }
    }
  }

  /** The `errors` state after `setErrors(newErrors)`. */
  function Shown(e: map<string, string>): (m: map<string, Option<string>>)
    ensures m.Keys == e.Keys && forall f :: f in e ==> m[f] == Some(e[f])
  {
    map f | f in e :: Some(e[f])
  }

  /** The component's state and its handlers. */
  class FormState {
    var formData: Record
    var errors: map<string, Option<string>>   // handleChange stores null over a cleared error
    var touched: set<string>

    /** `useState(DEFAULT_FORM_VALUES)`, `useState({})`, `useState({})` */
    constructor ()
      ensures formData == DefaultFormValues && errors == map[] && touched == {}
    {
      formData, errors, touched := DefaultFormValues, map[], {};
    }

    /** `errors[name]` is truthy. */
    predicate HasError(name: string)
      reads this
    {
      name in errors && errors[name].Some? && errors[name].value != ""
    }

    /**
     * `handleChange`: sets the one field, clears its error only if it had
     * one, marks it touched; nothing else changes.
     */
    method HandleChange(name: string, value: Value)
      modifies this
      ensures formData == old(formData)[name := value]
      ensures errors == if old(HasError(name)) then old(errors)[name := None] else old(errors)
      ensures touched == old(touched) + {name}
    {
      formData := formData[name := value];
      if HasError(name) {
        errors := errors[name := None];
      }
      touched := touched + {name};
    }

    /** `validateForm`: replaces `errors` wholesale and reports whether the new map is empty. */
    method ValidateForm(js: JsEnv) returns (valid: bool)
      modifies this
      ensures errors == Shown(FormErrors(js, formData))
      ensures valid <==> FormErrors(js, formData) == map[]
      ensures formData == old(formData) && touched == old(touched)
    {
      var newErrors := ComputeErrors(js, formData);
      errors := Shown(newErrors);
      valid := |newErrors.Keys| == 0;
    }

    /**
     * `handleSubmit`: marks every key of `formData` touched, validates, and
     * hands `formData` to `onSubmit` (the returned value) only when valid.
     */
    method HandleSubmit(js: JsEnv) returns (submitted: Option<Record>)
      modifies this
      ensures formData == old(formData)
      ensures touched == old(formData).Keys
      ensures errors == Shown(FormErrors(js, formData))
      ensures submitted == if FormErrors(js, formData) == map[] then Some(formData) else None
    {
      touched := formData.Keys;
      var valid := ValidateForm(js);
      submitted := if valid then Some(formData) else None;
    }

    /** `handleReset`: back to the defaults with no errors and nothing touched. */
    method HandleReset()
      modifies this
      ensures formData == DefaultFormValues && errors == map[] && touched == {}
    {
      formData, errors, touched := DefaultFormValues, map[], {};
    }
  }
}

=== FILE: prediction_hooks.dfy ===
/**
 * The state hooks of the client (frontend/src/hooks/usePrediction.js):
 * the prediction store behind `usePrediction` with its newest-first
 * history of at most ten entries, and the result mapping of
 * `useHealthCheck` and `useModelInfo`.
 *
 * Each hook's state record becomes a class whose methods perform the
 * hook's `setState` updates; timestamps (`new Date().toISOString()`) are
 * passed in as `now`.
 */
module PredictionHooks {
  import opened Wrappers
  import opened JsSemantics
  import opened Constants
  import opened ApiService

  const HistoryLimit: nat := 10

  function Min(a: int, b: int): int {
    if a < b then a else b
  }

  /** `[entry, ...history.slice(0, 9)]`: newest first, at most ten entries. */
  function PushHistory(history: seq<Record>, entry: Record): (h: seq<Record>)
    ensures |h| == Min(|history| + 1, HistoryLimit)
    ensures h[0] == entry
    ensures forall i :: 1 <= i < |h| ==> h[i] == history[i - 1]
  {
    [entry] + history[..Min(|history|, HistoryLimit - 1)]
  }

  /** `history.filter((_, i) => i !== index)` */
  function WithoutIndex(history: seq<Record>, index: int): seq<Record> {
    if history == [] then []
    else (if index == 0 then [] else [history[0]]) + WithoutIndex(history[1..], index - 1)
  }

  /** The filter removes exactly the entry at index and keeps the order of the rest. */
  lemma {:induction false} WithoutIndexSplices(history: seq<Record>, index: int)
    ensures 0 <= index < |history| ==> WithoutIndex(history, index) == history[..index] + history[index + 1..]
    ensures !(0 <= index < |history|) ==> WithoutIndex(history, index) == history
  {
    if history != [] {
      WithoutIndexSplices(history[1..], index - 1);
      if index > 0 && index < |history| {
        assert history[1..][..index - 1] == history[1..index];
        assert history[1..][index - 1 + 1..] == history[index + 1..];
        assert [history[0]] + history[1..index] == history[..index];
      } else if index != 0 {
        assert [history[0]] + history[1..] == history;
      }
    }
  }

  /** `history[index] || null` (every entry is an object, hence truthy). */
  function HistoryAt(history: seq<Record>, index: int): (r: Option<Record>)
    ensures r.Some? <==> 0 <= index < |history|
    ensures r.Some? ==> r.value == history[index]
  {
    if 0 <= index < |history| then Some(history[index]) else None
  }

  /** `{...result, timestamp, flightData}` */
  function NewPrediction(result: Value, flightData: Record, now: string): (p: Record)
    ensures "timestamp" in p && p["timestamp"] == Str(now)
    ensures "flightData" in p && p["flightData"] == Obj(flightData)
    ensures p.Keys == (if result.Obj? then result.fields.Keys else {}) + {"timestamp", "flightData"}
    ensures result.Obj? ==> forall k :: k in result.fields && k != "timestamp" && k != "flightData" ==>
      k in p && p[k] == result.fields[k]
  {
    (if result.Obj? then result.fields else map[])["timestamp" := Str(now)]["flightData" := Obj(flightData)]
  }

  /** What a hook action resolves with: `{success: true, data}` or `{success: false, error}`. */
  datatype HookResult = Succeeded(data: Value) | Failed(error: string)

  /**
   * The reply of `getPredictionWithRetry` counts as a prediction
   * (`result.success` is truthy); a null body throws at `result.success`.
   */
  predicate IsSuccessfulReply(reply: Result<Value, Failure>) {
    reply.Ok? && !Nullish(reply.value) && Truthy(Field(reply.value, "success"))
  }

  /** `error.message || fallback` */
  function MessageOr(message: string, fallback: string): string {
    if message != "" then message else fallback
  }

  /**
   * The message the catch block stores for a reply that is not a
   * prediction: the thrown error's; for a null or undefined body the
   * TypeError's from reading `result.success`; for a falsy `success` the
   * message of `new Error(result.error || PREDICTION_FAILED)`.
   */
  function FailureText(js: JsEnv, reply: Result<Value, Failure>): string
    requires !IsSuccessfulReply(reply)
  {
    var thrown := match reply
      case Ok(body) =>
        if Nullish(body) then js.readOfNullish(body, "success")
        else ToString(js, OrChain([Field(body, "error"), Str(PredictionFailedMessage)]))
      case Err(f) => f.Message();
    MessageOr(thrown, UnknownErrorMessage)
  }

  /**
   * A body whose `success` is falsy fails with its `error` text or
   * PREDICTION_FAILED; a null or undefined body fails with the TypeError's
   * message, or UNKNOWN_ERROR when that message is empty.
   */
  lemma UnsuccessfulReplyText(js: JsEnv, body: Value)
    requires !Truthy(Field(body, "success"))
    ensures Nullish(body) ==>
      FailureText(js, Ok(body)) == MessageOr(js.readOfNullish(body, "success"), UnknownErrorMessage)
    ensures !Nullish(body) ==> var e := Field(body, "error");
      FailureText(js, Ok(body)) == MessageOr(if Truthy(e) then ToString(js, e) else PredictionFailedMessage, UnknownErrorMessage)
    ensures FailureText(js, Ok(body)) != ""
  {
  }

  /** The state of `usePrediction`. */
  class PredictionStore {
    var loading: bool
    var prediction: Option<Record>
    var error: Option<string>
    var history: seq<Record>

    ghost predicate Valid()
      reads this
    {
      |history| <= HistoryLimit
    }

    constructor ()
      ensures Valid()
      ensures !loading && prediction == None && error == None && history == []
    {
      loading, prediction, error, history := false, None, None, [];
    }

    /** The first `setState` of `predictPrice`. */
    method StartPrediction()
      requires Valid()
      modifies this
      ensures Valid()
      ensures loading && error == None
      ensures prediction == old(prediction) && history == old(history)
    {
      loading, error := true, None;
    }

    /** The second `setState` of `predictPrice`, once the request has settled. */
    method FinishPrediction(js: JsEnv, reply: Result<Value, Failure>, flightData: Record, now: string)
      returns (outcome: HookResult)
      requires Valid()
      modifies this
      ensures Valid() && !loading
      ensures IsSuccessfulReply(reply) ==>
        var p := NewPrediction(reply.value, flightData, now);
        && outcome == Succeeded(Obj(p))
        && prediction == Some(p) && error == None
        && history == PushHistory(old(history), p)
      ensures !IsSuccessfulReply(reply) ==>
        && outcome == Failed(FailureText(js, reply))
        && prediction == None && error == Some(FailureText(js, reply))
        && history == old(history)
    {
      if IsSuccessfulReply(reply) {
        var p := NewPrediction(reply.value, flightData, now);
        loading, prediction, error := false, Some(p), None;
        history := PushHistory(history, p);
        outcome := Succeeded(Obj(p));
      } else {
        var message := FailureText(js, reply);
        loading, error, prediction := false, Some(message), None;
        outcome := Failed(message);
      }
    }

    /**
     * `predictPrice(flightData)`; `transport(p, i)` is the outcome of the
     * i-th POST of payload p.
     */
    method PredictPrice(js: JsEnv, flightData: Record, transport: (Record, nat) -> Attempt<Value>, now: string)
      returns (outcome: HookResult)
      requires Valid()
      modifies this
      ensures Valid() && !loading
      ensures var reply := GetPredictionWithRetry(js, flightData, transport).result;
        if IsSuccessfulReply(reply) then
          var p := NewPrediction(reply.value, flightData, now);
          outcome == Succeeded(Obj(p)) && prediction == Some(p) && error == None
          && history == PushHistory(old(history), p)
        else
          outcome == Failed(FailureText(js, reply)) && prediction == None
          && error == Some(FailureText(js, reply)) && history == old(history)
    {
      StartPrediction();
      var call := GetPredictionWithRetry(js, flightData, transport);
      outcome := FinishPrediction(js, call.result, flightData, now);
    }

    /** `clearPrediction` */
    method ClearPrediction()
      requires Valid()
      modifies this
      ensures Valid()
      ensures prediction == None && error == None
      ensures loading == old(loading) && history == old(history)
    {
      prediction, error := None, None;
    }

    /** `clearError` */
    method ClearError()
      requires Valid()
      modifies this
      ensures Valid()
      ensures error == None
      ensures loading == old(loading) && prediction == old(prediction) && history == old(history)
    {
      error := None;
    }

    /** `clearHistory` */
    method ClearHistory()
      requires Valid()
      modifies this
      ensures Valid()
      ensures history == []
      ensures loading == old(loading) && prediction == old(prediction) && error == old(error)
    {
      history := [];
    }

    /** `getPredictionFromHistory(index)` */
    function PredictionFromHistory(index: int): (r: Option<Record>)
      reads this
      ensures r.Some? <==> 0 <= index < |history|
      ensures r.Some? ==> r.value == history[index]
    {
      HistoryAt(history, index)
    }

    /** `removePredictionFromHistory(index)` */
    method RemovePredictionFromHistory(index: int)
      requires Valid()
      modifies this
      ensures Valid()
      ensures 0 <= index < |old(history)| ==> history == old(history[..index] + history[index + 1..])
      ensures !(0 <= index < |old(history)|) ==> history == old(history)
      ensures loading == old(loading) && prediction == old(prediction) && error == old(error)
    {
      WithoutIndexSplices(history, index);
      history := WithoutIndex(history, index);
    }
  }

  /**
   * `result.status === 'healthy'` for a reply that arrived. The read sits
   * inside a state updater, so for a null or undefined reply it throws when
   * React runs the updater, not inside `checkHealth`'s try; `CheckHealth`
   * therefore uses this only for a reply that is an object.
   */
  function HealthyFrom(reply: Attempt<Value>): (healthy: bool)
    ensures healthy <==> reply.Resolved? && Field(reply.value, "status") == Str("healthy")
  {
    reply.Resolved? && StrictEquals(Field(reply.value, "status"), Str("healthy"))
  }

  /** The state of `useHealthCheck`. */
  class HealthMonitor {
    var loading: bool
    var healthy: Option<bool>
    var error: Option<string>
    var lastCheck: Option<string>

    constructor ()
      ensures !loading && healthy == None && error == None && lastCheck == None
    {
      loading, healthy, error, lastCheck := false, None, None, None;
    }

    /**
     * `checkHealth`, given the outcome of the health request: healthy only
     * for a reply whose status is 'healthy', false on any error, with the
     * error message falling back to the network text. A null or undefined
     * reply still resolves successfully: the updater that reads
     * `result.status` is only queued here, so the state keeps what the
     * first update set (loading, no error).
     */
    method CheckHealth(js: JsEnv, reply: Attempt<Value>, now: string) returns (outcome: HookResult)
      modifies this
      ensures reply.Resolved? ==> outcome == Succeeded(reply.value)
      ensures reply.Resolved? && !Nullish(reply.value) ==>
        !loading && healthy == Some(HealthyFrom(reply)) && error == None && lastCheck == Some(now)
      ensures reply.Resolved? && Nullish(reply.value) ==>
        loading && error == None && healthy == old(healthy) && lastCheck == old(lastCheck)
      ensures reply.Rejected? ==>
        var message := MessageOr(Intercept(js, reply.error).message, NetworkErrorMessage);
        !loading && healthy == Some(false) && error == Some(message) && lastCheck == Some(now) &&
        outcome == Failed(message)
    {
      loading, error := true, None;
      match reply {
        case Resolved(body) =>
          if !Nullish(body) {
            loading, healthy, error, lastCheck := false, Some(HealthyFrom(reply)), None, Some(now);
          }
          outcome := Succeeded(body);
        case Rejected(e) =>
          var message := MessageOr(Intercept(js, e).message, NetworkErrorMessage);
          loading, healthy, error, lastCheck := false, Some(false), Some(message), Some(now);
          outcome := Failed(message);
      }
    }
  }

  /** The state of `useModelInfo`. */
  class ModelInfoState {
    var loading: bool
    var modelInfo: Option<Value>
    var error: Option<string>

    constructor ()
      ensures !loading && modelInfo == None && error == None
    {
      loading, modelInfo, error := false, None, None;
    }

    /** `fetchModelInfo`, given the outcome of the model-info request. */
    method FetchModelInfo(js: JsEnv, reply: Attempt<Value>) returns (outcome: HookResult)
      modifies this
      ensures !loading
      ensures reply.Resolved? ==>
        modelInfo == Some(reply.value) && error == None && outcome == Succeeded(reply.value)
      ensures reply.Rejected? ==>
        var message := MessageOr(Intercept(js, reply.error).message, UnknownErrorMessage);
        modelInfo == None && error == Some(message) && outcome == Failed(message)
    {
      loading, error := true, None;
      match reply {
        case Resolved(body) =>
          loading, modelInfo, error := false, Some(body), None;
          outcome := Succeeded(body);
        case Rejected(e) =>
          var message := MessageOr(Intercept(js, e).message, UnknownErrorMessage);
          loading, error, modelInfo := false, Some(message), None;
          outcome := Failed(message);
      }
    }
  }

  /** Pushing entries one after another, as successive successful predictions do. */
  function PushAll(history: seq<Record>, entries: seq<Record>): seq<Record> {
    if entries == [] then history
    else PushHistory(PushAll(history, entries[..|entries| - 1]), entries[|entries| - 1])
  }

  /**
   * After successive successful predictions the history lists the latest
   * ones, newest first: position i holds the i-th most recent entry.
   */
  lemma {:induction false} PushAllNewestFirst(history: seq<Record>, entries: seq<Record>, i: nat)
    requires i < Min(|entries|, HistoryLimit)
    ensures i < |PushAll(history, entries)|
    ensures PushAll(history, entries)[i] == entries[|entries| - 1 - i]
  {
    if i > 0 {
      PushAllNewestFirst(history, entries[..|entries| - 1], i - 1);
    }
  }
}

=== FILE: prediction_result.dfy ===
/**
 * What the result card shows for a prediction
 * (frontend/src/components/predictor/PredictionResult.jsx): the price
 * fallback chain, the price band, and the flight-detail getters, each a
 * JavaScript `||` chain over several possible key names ending in a fixed
 * default text.
 */
module PredictionResult {
  import opened Wrappers
  import opened JsSemantics

  const Rupee := "\U{20B9}"
  const Arrow := " \U{2192} "

  // ---------------------------------------------------------------------
  // Price
  // ---------------------------------------------------------------------

  /** `result.predicted_price || result.price || result.prediction || 0` */
  function PredictedPrice(result: Value): Value {
    OrChain([Field(result, "predicted_price"), Field(result, "price"), Field(result, "prediction"), Num(0.0)])
  }

  /** The price is the first truthy of the three keys, and 0 when none is. */
  lemma PredictedPriceFallback(result: Value)
    ensures var pp, p, pr := Field(result, "predicted_price"), Field(result, "price"), Field(result, "prediction");
      PredictedPrice(result) ==
        if Truthy(pp) then pp else if Truthy(p) then p else if Truthy(pr) then pr else Num(0.0)
  {
    var vs := [Field(result, "predicted_price"), Field(result, "price"), Field(result, "prediction"), Num(0.0)];
    if Truthy(vs[0]) {
      OrChainSelects(vs, 0);
    } else if Truthy(vs[1]) {
      OrChainSelects(vs, 1);
    } else if Truthy(vs[2]) {
      OrChainSelects(vs, 2);
    } else {
      OrChainSelects(vs, 3);
    }
  }

  /** `result.formatted_price || ₹${predicted_price.toLocaleString()}` */
  function FormattedPrice(js: JsEnv, result: Value): Value {
    OrChain([Field(result, "formatted_price"), Str(Rupee + js.toLocaleString(PredictedPrice(result)))])
  }

  datatype PriceLevel = Low | Medium | High

  /** `getPriceLevel(price)`; a price that is NaN fails both comparisons and is High. */
  function PriceLevelOf(price: Option<real>): PriceLevel {
    if price.Some? && price.value < 5000.0 then Low
    else if price.Some? && price.value < 10000.0 then Medium
    else High
  }

  function Rank(level: PriceLevel): nat {
    match level
    case Low => 0
    case Medium => 1
    case High => 2
  }

  /** Low below 5000, Medium from 5000 up to 10000 exclusive, High from 10000. */
  lemma PriceLevelBands(x: real)
    ensures PriceLevelOf(Some(x)) == Low <==> x < 5000.0
    ensures PriceLevelOf(Some(x)) == Medium <==> 5000.0 <= x < 10000.0
    ensures PriceLevelOf(Some(x)) == High <==> 10000.0 <= x
    ensures PriceLevelOf(None) == High
  {
  }

  /** A higher price never gets a lower band. */
  lemma PriceLevelMonotone(x: real, y: real)
    requires x <= y
    ensures Rank(PriceLevelOf(Some(x))) <= Rank(PriceLevelOf(Some(y)))
  {
  }

  // ---------------------------------------------------------------------
  // Flight details
  // ---------------------------------------------------------------------

  /** `result.flightData || result` */
  function FlightDataOf(result: Value): Value {
    OrChain([Field(result, "flightData"), result])
  }

  /** The values of `keys` in v, in order. */
  function Fields(v: Value, keys: seq<string>): (vs: seq<Value>)
    ensures |vs| == |keys| && forall i :: 0 <= i < |keys| ==> vs[i] == Field(v, keys[i])
  {
    if keys == [] then [] else [Field(v, keys[0])] + Fields(v, keys[1..])
  }

  /**
   * A getter: the first truthy of `flightData[k]` for k in keys, then
   * `result[resultKey]`, then the fixed fallback text.
   */
  function Lookup(result: Value, keys: seq<string>, resultKey: string, fallback: string): (r: Value)
    requires fallback != ""
    ensures Truthy(r)
  {
    OrChain(Fields(FlightDataOf(result), keys) + [Field(result, resultKey), Str(fallback)])
  }

  const SourceKeys := ["source_city", "source", "from", "origin", "departure_city", "start", "Source"]
  const DestinationKeys := ["destination_city", "destination", "to", "dest", "arrival_city", "end", "Destination"]
  const StopsKeys := ["total_stops", "stops", "Total_Stops", "num_stops"]

  /** `getRouteString` */
  function RouteString(js: JsEnv, result: Value): (r: Value)
    ensures Truthy(r)
  {
    var data := FlightDataOf(result);
    var source := OrChain(Fields(data, SourceKeys));
    var destination := OrChain(Fields(data, DestinationKeys));
    if Truthy(source) && Truthy(destination)
      && !StrictEquals(source, Str("N/A")) && !StrictEquals(destination, Str("N/A"))
    then Str(ToString(js, source) + Arrow + ToString(js, destination))
    else OrChain([Field(result, "route"), Str("Route not available")])
  }

  /** A submitted query's cities give the route "S → D". */
  lemma RouteFromSubmittedCities(js: JsEnv, result: Value, query: map<string, Value>, s: string, d: string)
    requires Field(result, "flightData") == Obj(query)
    requires Get(query, "source_city") == Str(s) && Get(query, "destination_city") == Str(d)
    requires s != "" && d != "" && s != "N/A" && d != "N/A"
    ensures RouteString(js, result) == Str(s + Arrow + d)
  {
    var data := FlightDataOf(result);
    OrChainSelects([Field(result, "flightData"), result], 0);
    assert data == Obj(query);
    var source := OrChain(Fields(data, SourceKeys));
    var destination := OrChain(Fields(data, DestinationKeys));
    FirstKeyWins(data, SourceKeys, Str(s));
    FirstKeyWins(data, DestinationKeys, Str(d));
    assert source == Str(s) && destination == Str(d);
  }

  /** A truthy value under the first key is what the chain over the keys gives. */
  lemma FirstKeyWins(data: Value, keys: seq<string>, v: Value)
    requires |keys| > 0 && Field(data, keys[0]) == v && Truthy(v)
    ensures OrChain(Fields(data, keys)) == v
  {
    OrChainSelects(Fields(data, keys), 0);
  }

  /** When no source or destination is found the route falls back to `result.route`, then to a fixed text. */
  lemma RouteFallback(js: JsEnv, result: Value)
    requires !Truthy(OrChain(Fields(FlightDataOf(result), SourceKeys)))
    ensures RouteString(js, result) == OrChain([Field(result, "route"), Str("Route not available")])
  {
  }

  function AirlineOf(result: Value): (r: Value)
    ensures Truthy(r)
  {
    Lookup(result, ["airline", "carrier", "Airline"], "airline", "Airline not specified")
  }

  function ClassOf(result: Value): (r: Value)
    ensures Truthy(r)
  {
    Lookup(result, ["class", "travel_class", "cabin_class", "Class"], "class", "Economy")
  }

  function DurationOf(result: Value): (r: Value)
    ensures Truthy(r)
  {
    Lookup(result, ["duration", "flight_duration", "Duration"], "duration", "Duration not available")
  }

  function DepartureOf(result: Value): (r: Value)
    ensures Truthy(r)
  {
    Lookup(result, ["departure_time", "dep_time", "departure", "depart_time", "Dep_Time"], "departure",
      "Departure time not available")
  }

  function ArrivalOf(result: Value): (r: Value)
    ensures Truthy(r)
  {
    Lookup(result, ["arrival_time", "arrive_time", "arrival", "Arrival_Time"], "arrival", "Arrival time not available")
  }

  function DaysLeftOf(result: Value): (r: Value)
    ensures Truthy(r)
  {
    Lookup(result, ["days_left", "days_to_departure", "Days_Left"], "days_left", "Not specified")
  }

  /** The stops value `getStops` inspects; it is falsy only when every key is. */
  function StopsValue(result: Value): Value {
    OrChain(Fields(FlightDataOf(result), StopsKeys) + [Field(result, "stops")])
  }

  /** The wording `getStops` gives a stops value. */
  function StopsText(js: JsEnv, stops: Value): (text: string)
    ensures text != ""
  {
    if StrictEquals(stops, Num(0.0)) then "Non-stop"
    else if StrictEquals(stops, Num(1.0)) then "1 stop"
    else if ToNumber(js, stops).Some? && ToNumber(js, stops).value > 1.0 then ToString(js, stops) + " stops"
    else "Stops not specified"
  }

  /** 0 is 'Non-stop', 1 is '1 stop', n > 1 is 'n stops', anything else is unspecified. */
  lemma StopsWording(js: JsEnv, n: real)
    ensures StopsText(js, Num(0.0)) == "Non-stop"
    ensures StopsText(js, Num(1.0)) == "1 stop"
    ensures n > 1.0 ==> StopsText(js, Num(n)) == js.numberToString(n) + " stops"
    ensures n < 0.0 || 0.0 < n < 1.0 ==> StopsText(js, Num(n)) == "Stops not specified"
    ensures StopsText(js, Undefined) == "Stops not specified"
  {
  }

  /**
   * The form sends stops as one of its option labels ('Non-stop',
   * '1 stop', ...). None of them converts to a number, so such a value is
   * shown as 'Stops not specified'.
   */
  lemma StopLabelsAreNotNumbers(js: JsEnv, text: string)
    requires js.number(text).None?
    ensures StopsText(js, Str(text)) == "Stops not specified"
  {
  }

  /** `flight_details` */
  datatype FlightDetails = FlightDetails(
    route: Value, airline: Value, travelClass: Value, duration: Value,
    departure: Value, arrival: Value, stops: string, daysLeft: Value)

  datatype ResultView = ResultView(
    predictedPrice: Value, formattedPrice: Value, level: PriceLevel, details: FlightDetails)

  /** `flight_details`: every entry is defined (truthy), whatever keys the reply has. */
  function Details(js: JsEnv, result: Value): (d: FlightDetails)
    ensures Truthy(d.route) && Truthy(d.airline) && Truthy(d.travelClass) && Truthy(d.duration)
    ensures Truthy(d.departure) && Truthy(d.arrival) && d.stops != "" && Truthy(d.daysLeft)
  {
    FlightDetails(
      RouteString(js, result), AirlineOf(result), ClassOf(result), DurationOf(result),
      DepartureOf(result), ArrivalOf(result), StopsText(js, StopsValue(result)), DaysLeftOf(result))
  }

  /**
   * What the card renders for `result`: nothing for a falsy result,
   * otherwise the price, its band and the details.
   */
  function Render(js: JsEnv, result: Value): (view: Option<ResultView>)
    ensures view.None? <==> !Truthy(result)
    ensures view.Some? ==>
      && view.value.predictedPrice == PredictedPrice(result)
      && view.value.formattedPrice == FormattedPrice(js, result)
      && Truthy(view.value.formattedPrice)
      && view.value.level == PriceLevelOf(ToNumber(js, view.value.predictedPrice))
      && view.value.details == Details(js, result)
  {
    if !Truthy(result) then None
    else
      var price := PredictedPrice(result);
      var formatted := FormattedPrice(js, result);
      assert Truthy(formatted);
      Some(ResultView(price, formatted, PriceLevelOf(ToNumber(js, price)), Details(js, result)))
  }

  /** A reply without a class of its own shows 'Economy'. */
  lemma ClassDefaultsToEconomy(result: Value)
    requires forall k :: k in ["class", "travel_class", "cabin_class", "Class"] ==> !Truthy(Field(FlightDataOf(result), k))
    requires !Truthy(Field(result, "class"))
    ensures ClassOf(result) == Str("Economy")
  {
    var vs := Fields(FlightDataOf(result), ["class", "travel_class", "cabin_class", "Class"]) + [Field(result, "class"), Str("Economy")];
    assert forall j :: 0 <= j < 5 ==> !Truthy(vs[j]);
    OrChainSelects(vs, 5);
  }
}

=== FILE: wrappers.dfy ===
/** Option and Result, used for JavaScript's NaN/undefined and for thrown errors. */
module Wrappers {

  datatype Option<+T> = None | Some(value: T) {
    function GetOr(default: T): T {
      match this
      case Some(v) => v
      case None => default
    }
  }

  datatype Result<+T, +E> = Ok(value: T) | Err(error: E)
}
